=== FILE: README.md ===
# DeepInfra client core in Dafny

A model of the two operations of the DeepInfra Rust client and of the JSON
and multipart shapes they exchange with the service:

- **Audio transcription** (`src/audio_transcription.rs`). A request with
  builder defaults (`model` = `openai/whisper-large-v3-turbo`,
  `response_format` = `json`) becomes a multipart form: `model`, then
  `response_format`, then the `file` part, then `language`, `prompt`,
  `temperature` when present, and one `timestamp_granularities[]` field per
  granularity, in order. A file path that does not exist fails with
  `FileNotFoundError` before anything is sent. The reply is read as an
  untagged enum in declaration order: a transcription `{text}` first, then a
  simple error `{detail: string}`, then a detailed error
  `{detail: [{loc, msg, type}]}`. Anything else is a request error. A
  detailed error becomes one message: each entry is `loc` joined by `.`,
  then `": "`, then `msg`, and the entries are joined by `", "`.
- **Chat completion** (`src/chat_completition.rs`). Messages are an enum
  internally tagged by `role` (`system`, `user`, `assistant`, `tool`). The
  request has builder defaults (`max_tokens` 100000, `n` 1, `top_k` 0,
  `stream` false, `frequency_penalty`, `min_p` and `presence_penalty` 0.0,
  `repetition_penalty`, `temperature` and `top_p` 1.0, and the model
  `deepseek-ai/DeepSeek-V3`). A tool's `type` defaults to `"function"` when
  read. A response format's `type` defaults to `text`. The operation
  serialises the request, posts it and decodes the reply. Every failure is
  the single `ReqwestError` variant.

Modules:

- `Wrappers`: `Option` and `Result`.
- `Transport`: the three ways the HTTP layer can fail. These are sending,
  reading the body, and decoding it.
- `Json`: parsed JSON values and the serde rules the client depends on.
  Fields are looked up by key. A repeated key is an error. A missing or
  `null` `Option` field is `None`. A `#[serde(default)]` field takes its
  default when missing. Integers read from a response are range-checked
  into `i32` and `i64`, and `Vec`s are read element by element.
- `Strings`: `[String]::join` and its inverse for one-character
  separators.
- `AudioTranscription` and `ChatCompletion`: the two source files.

The file system, the HTTP exchange and `f32` printing are parameters:

- a `FileSystem` value lists which paths exist and which can be opened;
- a `server` function maps what is sent to what comes back;
- a `show` function renders a temperature.

Floats are carried as IEEE-754 bit patterns (`F32`, `F64`). The client
never computes with them.

Three facts about the code that the model keeps:

- Unset optional fields of a chat request are written as `null`, not left
  out, because the struct has no `skip_serializing_if`.
- Detailed error entries are joined with `", "`.
- Neither operation checks the HTTP status code. Any reply body is decoded
  as it is. An error body that fits no response shape is a decode failure,
  which is a request error.

## Model

| member | source | states |
|---|---|---|
| AudioTranscription.Form | src/audio_transcription.rs:112-147 | The form fails exactly when the source is a path that is missing or cannot be opened. A missing path gives `FileNotFoundError` with that path. An existing but unreadable path gives `IoError`. A successful form starts with `model` and `response_format`, and a byte buffer always succeeds, with the file part third. |
| AudioTranscription.FormRoundTrip | src/audio_transcription.rs:112-147 | Reading a built form back gives the model, response format, file part, language, prompt, rendered temperature and every granularity in order. Nothing in the request is lost or reordered. |
| AudioTranscription.FormFieldCounts | src/audio_transcription.rs:112-147 | `model`, `response_format` and `file` occur exactly once. `language`, `prompt` and `temperature` occur once when set and never otherwise. `timestamp_granularities[]` occurs once per granularity. |
| AudioTranscription.ReadGranularityFields | src/audio_transcription.rs:143-147 | The granularity fields read back to the exact list of granularities. |
| AudioTranscription.DefaultsLeadTheForm | src/audio_transcription.rs:71-79 | With no model or response format set, the form opens with `openai/whisper-large-v3-turbo` and `json`. |
| AudioTranscription.TwoGranularities | src/audio_transcription.rs:143-147 | Granularities `word` and `segment` on a byte source give exactly five fields: the two defaults, the file, then two `timestamp_granularities[]` fields in order. |
| AudioTranscription.DecodeTranscription | src/audio_transcription.rs:11-14 | An object is a transcription exactly when it has one string under `text`, and the text is that string. |
| AudioTranscription.Build | src/audio_transcription.rs:67-89 | The built request keeps the source and every optional field as given. An unset `model` becomes `openai/whisper-large-v3-turbo` and an unset `response_format` becomes `json`. A set value is kept. |
| AudioTranscription.FilePart | src/audio_transcription.rs:116-132 | A byte source always gives the in-memory part with its file name. A path gives the streamed part exactly when it exists and can be opened. A missing path gives `FileNotFoundError` with the path, and an existing but unopenable one gives `IoError`. |
| AudioTranscription.DecodeSimple | src/audio_transcription.rs:24-29 | A body is a simple error exactly when it is an object with one string under `detail`, and the message is that string. An array never is one, because untagged struct variants have no array form. |
| AudioTranscription.DecodeDetailed | src/audio_transcription.rs:24-29 | A body is a detailed error exactly when it is an object with one array under `detail` whose every element reads as an entry. The entries are those elements in order. An array body never is one. |
| AudioTranscription.DecodeErrorDetail | src/audio_transcription.rs:16-22 | An entry reads only from an object or a three-element array. An object reads exactly when it holds a single string list under `loc` and a single string under each of `msg` and `type`, in any order, other keys ignored, and those are the entry. A three-element array reads exactly when it holds a string list and two strings, and those are the entry. |
| AudioTranscription.DecodeApiResponse | src/audio_transcription.rs:31-36 | When the transcription shape fits, it wins. An error shape is chosen only when it does not fit, and only from an object with a `detail` key. A simple error carries the string under `detail`, and a detailed error comes from an array there. |
| AudioTranscription.ExampleEntryAnyOrder | src/audio_transcription.rs:16-22 | `{"type":"t","input":null,"msg":"m","loc":["a"]}` reads as the entry with location `a`, message `m` and type `t`. |
| AudioTranscription.FormatDetails | src/audio_transcription.rs:164-171 | No entries give the empty message. Otherwise the message starts with the first entry's rendering, and it is as long as all renderings plus one `", "` between each two. |
| AudioTranscription.Classify | src/audio_transcription.rs:149-173 | A transport failure is passed on as `ReqwestError`. A body of no known shape is `ReqwestError(DecodeFailed)`. A transcription body is returned as the result. A simple error becomes `ErrorResponse` with its `detail` unchanged, and a detailed error becomes `ErrorResponse` with the formatted message. Success means the body decoded as a transcription. The reply never produces a file error. |
| AudioTranscription.Transcribe | src/audio_transcription.rs:112-174 | A missing path returns `FileNotFoundError` and sends nothing. Nothing is sent exactly when the form cannot be built, and then the result is the form's own error: `FileNotFoundError` or `IoError`. A form that builds is always sent, and the result is the classified reply. |
| AudioTranscription.TextWins | src/audio_transcription.rs:31-36 | A body with a string `text` is a transcription whatever else it holds. |
| AudioTranscription.SimpleDetailVerbatim | src/audio_transcription.rs:160-163 | When no transcription matches, a string `detail` is returned unchanged as the error message. |
| AudioTranscription.DetailedMessage | src/audio_transcription.rs:164-171 | When no transcription matches and `detail` is an array of well-formed entries, the error message is their rendering joined by `", "`. |
| AudioTranscription.NoShapeIsTransportError | src/audio_transcription.rs:149-156 | An object with no string `text`, whose `detail` is absent, repeated, or neither a string nor a list of readable entries, fails as a request decode error, not as an error response. |
| AudioTranscription.OneStringArrayIsTranscription | src/audio_transcription.rs:31-36 | The plain transcription struct also reads from an array of its fields, so `["s"]` is the transcription `s`. Neither error shape reads that array. |
| AudioTranscription.ScalarBodyIsTransportError | src/audio_transcription.rs:149-156 | A string, number, boolean or `null` body is a request decode error. |
| AudioTranscription.OtherArrayIsTransportError | src/audio_transcription.rs:24-36 | Every other array body is a request decode error and never an error response. This includes a one-element array holding entries. |
| AudioTranscription.FormatDetailsEmpty | src/audio_transcription.rs:164-171 | An empty detail list gives the empty message. |
| AudioTranscription.FormatDetailsConcat | src/audio_transcription.rs:164-171 | The message for two runs of entries is the first run's message, `", "`, then the second's. Entry order is kept. |
| AudioTranscription.FormatDetailsIgnoresType | src/audio_transcription.rs:165-168 | The message depends only on each entry's `loc` and `msg`, never on its `type`. |
| AudioTranscription.DottedPathRecoverable | src/audio_transcription.rs:167 | When no location segment contains `.`, splitting the rendered path at `.` gives the location back. |
| AudioTranscription.ErrorDetailRoundTrip | src/audio_transcription.rs:16-22 | An error entry written as `{loc, msg, type}` reads back unchanged. |
| AudioTranscription.ApiResponseRoundTrip | src/audio_transcription.rs:11-36 | Each of the three reply shapes, written as the server writes it, decodes to the same variant and contents. |
| AudioTranscription.ExampleTranscription | src/audio_transcription.rs:158-159 | `{"text":"hello"}` is the transcription `hello`. |
| AudioTranscription.ExampleSimpleError | src/audio_transcription.rs:160-163 | `{"detail":"bad request"}` is the error response `bad request`. |
| AudioTranscription.ExampleDetailedError | src/audio_transcription.rs:164-171 | A detailed error with location `body`, `language` and message `invalid` becomes `body.language: invalid`. |
| Strings.Join | src/audio_transcription.rs:167-170 | A join of at least one part starts with the first part. |
| Strings.JoinInOrder | src/audio_transcription.rs:165-170 | The iterative join, which copies the first part and then appends separator and part for each further part, equals the recursive `Join`. |
| Strings.JoinLength | src/audio_transcription.rs:170 | A join of n parts is as long as the parts plus n-1 separators. |
| Strings.SplitJoin | src/audio_transcription.rs:167 | Splitting a one-character join at that character gives the parts back when no part contains it. |
| Json.FindSpec | src/chat_completition.rs:208-230 | A derived struct reads a field as missing when its key occurs nowhere, as the value when the key occurs exactly once, and as an error when it repeats. |
| Json.DecodeList | src/audio_transcription.rs:18 | A `Vec` reads exactly when every element reads, and element by element. |
| Json.ListRoundTrip | src/chat_completition.rs:66 | A written `Vec` reads back when its elements do. |
| ChatCompletion.EncodeMessage | src/chat_completition.rs:40-47 | A message is written as an object with the `role` tag first and no key repeated. |
| ChatCompletion.DecodeMessage | src/chat_completition.rs:40-47 | A decoded message came from an object whose single `role` key names its variant. The tag is `system`, `user`, `assistant` or `tool` exactly when the message is that variant. An object with one of these tags reads exactly when that variant's fields read from it, in any order, other keys ignored, and the message holds those field values. |
| ChatCompletion.ExampleReorderedMessage | src/chat_completition.rs:17-23 | `{"content":"hi","extra":1,"role":"user"}` reads as the user message `hi` with no name. The tag may come last and the unknown key is ignored. |
| ChatCompletion.MessageRoundTrip | src/chat_completition.rs:40-47 | A message is written with `role` first, and every message reads back unchanged. |
| ChatCompletion.NoRoleNoMessage | src/chat_completition.rs:40-47 | An object with no `role`, a repeated `role`, or a `role` that is not one of the four variant names is not a message. |
| ChatCompletion.AssistantRoundTrip | src/chat_completition.rs:25-31 | An assistant message with or without name and tool calls reads back unchanged. |
| ChatCompletion.ToolCallRoundTrip | src/chat_completition.rs:183-206 | A tool call written with keys `id`, `type`, `function` reads back unchanged. |
| ChatCompletion.ChatToolRoundTrip | src/chat_completition.rs:135-145 | A tool is written with its kind under `type` first and reads back unchanged. |
| ChatCompletion.ToolTypeDefaultsToFunction | src/chat_completition.rs:139-149 | A tool object without `type` reads as a `"function"` tool. |
| ChatCompletion.DecodeResponseFormatType | src/chat_completition.rs:164-169 | A response type reads exactly from `"text"` or `"json_object"`. |
| ChatCompletion.ResponseFormatRoundTrip | src/chat_completition.rs:164-177 | A response format is written as `{"type": "text" or "json_object"}` and reads back unchanged. |
| ChatCompletion.ResponseFormatDefaultsToText | src/chat_completition.rs:174-181 | A response format object without `type` reads as `text`. |
| ChatCompletion.Build | src/chat_completition.rs:51-133 | The built request keeps the messages and every value the caller set. Each unset defaulted field takes its builder default. `frequency_penalty`, `min_p` and `presence_penalty` become 0.0. `max_tokens` becomes 100000, `model` `deepseek-ai/DeepSeek-V3`, `n` 1 and `top_k` 0. `repetition_penalty`, `temperature` and `top_p` become 1.0, and `stream` false. The other optional fields stay unset. |
| ChatCompletion.EncodeRequest | src/chat_completition.rs:51-133 | The body is an object whose keys are the 18 field names in declaration order, none repeated. |
| ChatCompletion.RequestFields | src/chat_completition.rs:51-133 | Each of the 18 keys holds that field of the request, set or defaulted. Floats and integers are written as their values, `messages` as the list of written messages, and each optional as its encoding or `null`. |
| ChatCompletion.DefaultRequestValues | src/chat_completition.rs:56-128 | A request built from messages alone carries the documented defaults. Its six optional fields are written as `null`. |
| ChatCompletion.UnsetOptionalsAreNull | src/chat_completition.rs:94-132 | Every unset optional request field is still written, as `null`. |
| ChatCompletion.RequestMessagesRoundTrip | src/chat_completition.rs:64-66 | The written `messages` field reads back to the request's messages. |
| ChatCompletion.DecodeResponse | src/chat_completition.rs:222-230 | A decoded response came from an object with a single `choices` key. |
| ChatCompletion.ChoiceRoundTrip | src/chat_completition.rs:208-213 | A choice reads back unchanged. |
| ChatCompletion.UsageRoundTrip | src/chat_completition.rs:215-220 | A usage record reads back unchanged. |
| ChatCompletion.ResponseRoundTrip | src/chat_completition.rs:222-230 | A response, with any of its optional fields absent, reads back unchanged. |
| ChatCompletion.Complete | src/chat_completition.rs:253-267 | The body sent is the serialised request. A transport failure is passed on. An undecodable reply is `ReqwestError(DecodeFailed)`. Success happens exactly when the reply decodes, and it returns that decoding. |
| ChatCompletion.ApiErrorIsTransportError | src/chat_completition.rs:232-236 | A reply without `choices`, such as an API error body, surfaces as a request error. |
| ChatCompletion.EchoedMessages | src/chat_completition.rs:253-267 | A server answering with one choice per request message gets those messages back in the result, in order. |

## Left out

- `src/client.rs` and `src/lib.rs` are not part of this model. They hold client construction with reqwest, the bearer header (checked by the `http` crate's `HeaderValue::from_str`) and re-exports.
- The HTTP exchange (URL, headers, status code, streaming, async and tracing) is the `server` parameter. Its failures are the three `TransportFailure` values.
- The multipart wire encoding is not modelled. Neither are the file name and MIME type reqwest derives for a path part, and the streaming read of the file. A path part is `FileAtPath(path)`.
- `FileSource::Filepath` paths are strings. `to_string_lossy` conversion is not modelled.
- `f32` to string conversion is the `show` parameter. JSON numbers for `f64` fields are opaque bit patterns. serde_json's writing of non-finite floats as `null` is not modelled.
- JSON text parsing and printing (escapes, number syntax) belong to serde_json. The model starts from parsed values.
- Chat structs and the internally tagged `Message` enum in serde's array form are not modelled. `Message` reads from a sequence whose first element is the tag, but `DecodeMessage` reads only objects. Also not modelled is the `{"text": null}` map form of a unit enum variant. On the audio path, the transcription struct and each error entry also read from an array of their fields. The `Simple` and `Detailed` variants of the untagged error enum never read from an array, because serde has no array form for untagged struct variants.
- `IoError` is tagged with the path whose open failed. In the code it wraps the `std::io::Error` that `form.file(..)` returns, which the model does not represent.
- Deserialising a `ChatCompletionRequest` is not modelled. The client only serialises requests.
- ChatCompletion.ToolTypeDefaultsToFunction: `parameters` is held as the parsed JSON tree, not as serde_json's `Value`. serde_json keeps only the last of repeated keys and sorts keys, so for parameters with a repeated key or unsorted keys the code reads back a normalised value.
- ChatCompletion.ChatToolRoundTrip: the same holds for the round trip. It is exact for the parsed tree, and it is exact in the code only when `parameters` has no repeated key and its keys are in sorted order.
- ChatCompletion.DecodeResponse: states only that `choices` was found. The field-by-field content is stated by ChatCompletion.ResponseRoundTrip.

=== FILE: audio_transcription.dfy ===
/**
  The audio transcription operation: building the multipart form from a
  request, the local file check made before anything is sent, and the
  shape-based reading of the JSON answer into a transcription or one of
  two error payloads.
 */
module AudioTranscription {
  import opened Wrappers
  import opened Transport
  import opened Json
  import Strings

  newtype Byte = x: int | 0 <= x < 256

  /** An IEEE-754 binary32 value carried as its bit pattern; the client only prints it. */
  datatype F32 = F32(bits: bv32)

  /** Where the audio comes from: a path on the local file system, or bytes with a file name. */
  datatype FileSource =
    | Filepath(path: string)
    | Bytes(buffer: seq<Byte>, fileName: string)

  datatype AudioTranscriptionRequest = AudioTranscriptionRequest(
    language: Option<string>,
    model: string,
    prompt: Option<string>,
    responseFormat: string,
    source: FileSource,
    temperature: Option<F32>,
    timestampGranularities: Option<seq<string>>)

  const DefaultModel: string := "openai/whisper-large-v3-turbo"
  const DefaultResponseFormat: string := "json"

  /** The request builder: every field the caller may leave unset. The source has no default. */
  datatype RequestBuilder = RequestBuilder(
    language: Option<string>,
    model: Option<string>,
    prompt: Option<string>,
    responseFormat: Option<string>,
    temperature: Option<F32>,
    timestampGranularities: Option<seq<string>>)

  const EmptyBuilder: RequestBuilder := RequestBuilder(None, None, None, None, None, None)

  /** The request the builder finishes with; unset `model` and `response_format` take their defaults. */
  function Build(b: RequestBuilder, source: FileSource): (r: AudioTranscriptionRequest)
    ensures r.source == source
    ensures b.model.None? ==> r.model == DefaultModel
    ensures b.model.Some? ==> r.model == b.model.value
    ensures b.responseFormat.None? ==> r.responseFormat == DefaultResponseFormat
    ensures b.responseFormat.Some? ==> r.responseFormat == b.responseFormat.value
    ensures r.language == b.language && r.prompt == b.prompt
    ensures r.temperature == b.temperature && r.timestampGranularities == b.timestampGranularities
  {
    AudioTranscriptionRequest(
      b.language,
      b.model.GetOr(DefaultModel),
      b.prompt,
      b.responseFormat.GetOr(DefaultResponseFormat),
      source,
      b.temperature,
      b.timestampGranularities)
  }

  // The multipart form, as an ordered list of named parts.

  datatype Part =
    | Text(value: string)
    /** Bytes held in memory, sent with the given file name. */
    | FileBytes(buffer: seq<Byte>, fileName: string)
    /** A file streamed from `path`; the HTTP library names the part after the path's last component. */
    | FileAtPath(path: string)

  datatype FormField = FormField(name: string, part: Part)

  /** The file system as the operation sees it: which paths exist, and which of those can be opened. */
  datatype FileSystem = FileSystem(existing: set<string>, readable: set<string>)

  datatype AudioTranscriptionError =
    /** A failure of the HTTP exchange, including a body of no expected shape. */
    | ReqwestError(failure: TransportFailure)
    | FileNotFoundError(path: string)
    /** The file exists but could not be opened. */
    | IoError(path: string)
    /** An error payload sent by the service, made into one message. */
    | ErrorResponse(message: string)

  /** The `file` part, or the local error that stops the operation before anything is sent. */
  function FilePart(source: FileSource, fs: FileSystem): (r: Result<Part, AudioTranscriptionError>)
    ensures source.Bytes? ==> r == Ok(FileBytes(source.buffer, source.fileName))
    ensures source.Filepath? ==> (r.Ok? <==> source.path in fs.existing && source.path in fs.readable)
    ensures source.Filepath? && r.Ok? ==> r.value == FileAtPath(source.path)
    ensures source.Filepath? && source.path !in fs.existing ==> r == Err(FileNotFoundError(source.path))
    ensures source.Filepath? && source.path in fs.existing && r.Err? ==> r == Err(IoError(source.path))
  {
    match source
    case Filepath(path) =>
      if path !in fs.existing then Err(FileNotFoundError(path))
      else if path !in fs.readable then Err(IoError(path))
      else Ok(FileAtPath(path))
    case Bytes(buffer, fileName) => Ok(FileBytes(buffer, fileName))
  }

  /** A text field present only when the value is. */
  function OptionalText(name: string, value: Option<string>): seq<FormField> {
    match value
    case None => []
    case Some(v) => [FormField(name, Text(v))]
  }

  /** One `timestamp_granularities[]` text field per granularity, in order. */
  function GranularityFields(granularities: seq<string>): seq<FormField> {
    seq(|granularities|, i requires 0 <= i < |granularities| => FormField("timestamp_granularities[]", Text(granularities[i])))
  }

  /** The temperature as the text the form carries; `show` is the standard library's printing of an `f32`. */
  function TemperatureText(temperature: Option<F32>, show: F32 -> string): Option<string> {
    match temperature
    case None => None
    case Some(t) => Some(show(t))
  }

  /**
    The form the operation sends: `model` and `response_format`, the
    `file` part, then `language`, `prompt` and `temperature` when set,
    then one field per timestamp granularity. A missing or unopenable
    file ends the operation with a local error instead.
   */
  function Form(request: AudioTranscriptionRequest, fs: FileSystem, show: F32 -> string): (r: Result<seq<FormField>, AudioTranscriptionError>)
    ensures r.Err? <==> request.source.Filepath? && (request.source.path !in fs.existing || request.source.path !in fs.readable)
    ensures request.source.Filepath? && request.source.path !in fs.existing ==>
      r == Err(FileNotFoundError(request.source.path))
    ensures request.source.Filepath? && request.source.path in fs.existing && request.source.path !in fs.readable ==>
      r == Err(IoError(request.source.path))
    ensures r.Ok? ==>
      && |r.value| >= 3
      && r.value[0] == FormField("model", Text(request.model))
      && r.value[1] == FormField("response_format", Text(request.responseFormat))
    ensures request.source.Bytes? ==>
      r.Ok? && r.value[2] == FormField("file", FileBytes(request.source.buffer, request.source.fileName))
  {
    match FilePart(request.source, fs)
    case Err(e) => Err(e)
    case Ok(file) =>
      Ok([FormField("model", Text(request.model)),
          FormField("response_format", Text(request.responseFormat)),
          FormField("file", file)]
         + OptionalText("language", request.language)
         + OptionalText("prompt", request.prompt)
         + OptionalText("temperature", TemperatureText(request.temperature, show))
         + GranularityFields(request.timestampGranularities.GetOr([])))
  }

  // Reading a form back, as the receiving end of the multipart body would.

  /** What a reader recovers from a form laid out as `Form` lays it out. */
  datatype FormContents = FormContents(
    model: string,
    responseFormat: string,
    file: Part,
    language: Option<string>,
    prompt: Option<string>,
    temperature: Option<string>,
    granularities: seq<string>)

  /** The text of a leading field named `name`, if there is one, and the fields after it. */
  function TakeText(fields: seq<FormField>, name: string): (Option<string>, seq<FormField>) {
    if |fields| > 0 && fields[0].name == name && fields[0].part.Text? then (Some(fields[0].part.value), fields[1..])
    else (None, fields)
  }

  /** The values of a run of `timestamp_granularities[]` text fields; anything else fails. */
  function ReadGranularities(fields: seq<FormField>): Option<seq<string>>
    decreases |fields|
  {
    if |fields| == 0 then Some([])
    else if fields[0].name == "timestamp_granularities[]" && fields[0].part.Text? then
      match ReadGranularities(fields[1..])
      case Some(rest) => Some([fields[0].part.value] + rest)
      case None => None
    else None
  }

  function ReadForm(fields: seq<FormField>): Option<FormContents> {
    if |fields| < 3
       || fields[0].name != "model" || !fields[0].part.Text?
       || fields[1].name != "response_format" || !fields[1].part.Text?
       || fields[2].name != "file" || fields[2].part.Text?
    then None
    else
      var (language, afterLanguage) := TakeText(fields[3..], "language");
      var (prompt, afterPrompt) := TakeText(afterLanguage, "prompt");
      var (temperature, afterTemperature) := TakeText(afterPrompt, "temperature");
      match ReadGranularities(afterTemperature)
      case None => None
      case Some(granularities) =>
        Some(FormContents(fields[0].part.value, fields[1].part.value, fields[2].part,
                          language, prompt, temperature, granularities))
  }

  lemma {:induction false} ReadGranularityFields(granularities: seq<string>)
    ensures ReadGranularities(GranularityFields(granularities)) == Some(granularities)
    decreases |granularities|
  {
    if |granularities| > 0 {
      assert GranularityFields(granularities)[1..] == GranularityFields(granularities[1..]);
      ReadGranularityFields(granularities[1..]);
      assert [granularities[0]] + granularities[1..] == granularities;
    }
  }

  lemma TakeOptionalText(name: string, value: Option<string>, rest: seq<FormField>)
    requires |rest| > 0 ==> rest[0].name != name
    ensures TakeText(OptionalText(name, value) + rest, name) == (value, rest)
  {
    if value.Some? {
      assert (OptionalText(name, value) + rest)[1..] == rest;
    } else {
      assert OptionalText(name, value) + rest == rest;
    }
  }

  /**
    Every value the request puts into the form can be read back from it:
    the form carries `model`, `response_format`, the file, each optional
    field that is set and every granularity in order, and nothing of a
    field that is unset. An empty granularity list and an unset one both
    leave no field.
   */
  lemma FormRoundTrip(request: AudioTranscriptionRequest, fs: FileSystem, show: F32 -> string)
    requires Form(request, fs, show).Ok?
    ensures ReadForm(Form(request, fs, show).value) ==
      Some(FormContents(
        request.model,
        request.responseFormat,
        FilePart(request.source, fs).value,
        request.language,
        request.prompt,
        TemperatureText(request.temperature, show),
        request.timestampGranularities.GetOr([])))
  {
    var fields := Form(request, fs, show).value;
    var temperature := TemperatureText(request.temperature, show);
    var granularities := GranularityFields(request.timestampGranularities.GetOr([]));
    var tail3 := OptionalText("temperature", temperature) + granularities;
    var tail2 := OptionalText("prompt", request.prompt) + tail3;
    var tail1 := OptionalText("language", request.language) + tail2;
    assert fields[3..] == tail1;
    TakeOptionalText("temperature", temperature, granularities);
    TakeOptionalText("prompt", request.prompt, tail3);
    TakeOptionalText("language", request.language, tail2);
    ReadGranularityFields(request.timestampGranularities.GetOr([]));
  }

  /** How many fields of `fields` are named `name`. */
  function CountNamed(fields: seq<FormField>, name: string): nat
    decreases |fields|
  {
    if |fields| == 0 then 0
    else (if fields[0].name == name then 1 else 0) + CountNamed(fields[1..], name)
  }

  lemma {:induction false} CountNamedAppend(a: seq<FormField>, b: seq<FormField>, name: string)
    ensures CountNamed(a + b, name) == CountNamed(a, name) + CountNamed(b, name)
    decreases |a|
  {
    if |a| > 0 {
      assert (a + b)[1..] == a[1..] + b;
      CountNamedAppend(a[1..], b, name);
    } else {
      assert a + b == b;
    }
  }

  lemma {:induction false} CountGranularityFields(granularities: seq<string>, name: string)
    ensures CountNamed(GranularityFields(granularities), name) ==
      (if name == "timestamp_granularities[]" then |granularities| else 0)
    decreases |granularities|
  {
    if |granularities| > 0 {
      assert GranularityFields(granularities)[1..] == GranularityFields(granularities[1..]);
      CountGranularityFields(granularities[1..], name);
    }
  }

  lemma CountNamedOptionalText(field: string, value: Option<string>, name: string)
    ensures CountNamed(OptionalText(field, value), name) == (if field == name && value.Some? then 1 else 0)
  {
    if value.Some? {
      assert OptionalText(field, value)[1..] == [];
    }
  }

  /** The number of fields named `name` in a form, counted segment by segment. */
  lemma CountNamedForm(request: AudioTranscriptionRequest, fs: FileSystem, show: F32 -> string, name: string)
    requires Form(request, fs, show).Ok?
    ensures CountNamed(Form(request, fs, show).value, name) ==
      (if name == "model" then 1 else 0)
      + (if name == "response_format" then 1 else 0)
      + (if name == "file" then 1 else 0)
      + (if name == "language" && request.language.Some? then 1 else 0)
      + (if name == "prompt" && request.prompt.Some? then 1 else 0)
      + (if name == "temperature" && request.temperature.Some? then 1 else 0)
      + (if name == "timestamp_granularities[]" then |request.timestampGranularities.GetOr([])| else 0)
  {
    var file := FilePart(request.source, fs).value;
    var model := [FormField("model", Text(request.model))];
    var format := [FormField("response_format", Text(request.responseFormat))];
    var filePart := [FormField("file", file)];
    var language := OptionalText("language", request.language);
    var prompt := OptionalText("prompt", request.prompt);
    var temperature := OptionalText("temperature", TemperatureText(request.temperature, show));
    var granularities := GranularityFields(request.timestampGranularities.GetOr([]));
    assert Form(request, fs, show).value == model + format + filePart + language + prompt + temperature + granularities;
    CountNamedAppend(model + format + filePart + language + prompt + temperature, granularities, name);
    CountNamedAppend(model + format + filePart + language + prompt, temperature, name);
    CountNamedAppend(model + format + filePart + language, prompt, name);
    CountNamedAppend(model + format + filePart, language, name);
    CountNamedAppend(model + format, filePart, name);
    CountNamedAppend(model, format, name);
    CountNamedOptionalText("model", Some(request.model), name);
    CountNamedOptionalText("response_format", Some(request.responseFormat), name);
    CountNamedOptionalText("file", Some(""), name);
    assert CountNamed(filePart, name) == CountNamed(OptionalText("file", Some("")), name);
    CountNamedOptionalText("language", request.language, name);
    CountNamedOptionalText("prompt", request.prompt, name);
    CountNamedOptionalText("temperature", TemperatureText(request.temperature, show), name);
    CountGranularityFields(request.timestampGranularities.GetOr([]), name);
  }

  /**
    How often each name occurs in a form: `model`, `response_format` and
    `file` once; `language`, `prompt` and `temperature` once when set and
    never otherwise; `timestamp_granularities[]` once per granularity.
   */
  lemma FormFieldCounts(request: AudioTranscriptionRequest, fs: FileSystem, show: F32 -> string)
    requires Form(request, fs, show).Ok?
    ensures var fields := Form(request, fs, show).value;
      && CountNamed(fields, "model") == 1
      && CountNamed(fields, "response_format") == 1
      && CountNamed(fields, "file") == 1
      && CountNamed(fields, "language") == (if request.language.Some? then 1 else 0)
      && CountNamed(fields, "prompt") == (if request.prompt.Some? then 1 else 0)
      && CountNamed(fields, "temperature") == (if request.temperature.Some? then 1 else 0)
      && CountNamed(fields, "timestamp_granularities[]") == |request.timestampGranularities.GetOr([])|
  {
    CountNamedForm(request, fs, show, "model");
    CountNamedForm(request, fs, show, "response_format");
    CountNamedForm(request, fs, show, "file");
    CountNamedForm(request, fs, show, "language");
    CountNamedForm(request, fs, show, "prompt");
    CountNamedForm(request, fs, show, "temperature");
    CountNamedForm(request, fs, show, "timestamp_granularities[]");
  }

  /** A request built without setting `model` or `response_format` sends their defaults first. */
  lemma DefaultsLeadTheForm(b: RequestBuilder, source: FileSource, fs: FileSystem, show: F32 -> string)
    requires b.model.None? && b.responseFormat.None?
    requires Form(Build(b, source), fs, show).Ok?
    ensures Form(Build(b, source), fs, show).value[..2] ==
      [FormField("model", Text("openai/whisper-large-v3-turbo")), FormField("response_format", Text("json"))]
  {
  }

  /** The example of two granularities: two repeated fields, in the order given. */
  lemma TwoGranularities(buffer: seq<Byte>, fileName: string, fs: FileSystem, show: F32 -> string)
    ensures var request := Build(EmptyBuilder.(timestampGranularities := Some(["word", "segment"])), Bytes(buffer, fileName));
      Form(request, fs, show) == Ok([
        FormField("model", Text("openai/whisper-large-v3-turbo")),
        FormField("response_format", Text("json")),
        FormField("file", FileBytes(buffer, fileName)),
        FormField("timestamp_granularities[]", Text("word")),
        FormField("timestamp_granularities[]", Text("segment"))])
  {
    var request := Build(EmptyBuilder.(timestampGranularities := Some(["word", "segment"])), Bytes(buffer, fileName));
    var g := GranularityFields(["word", "segment"]);
    assert g == [FormField("timestamp_granularities[]", Text("word")), FormField("timestamp_granularities[]", Text("segment"))];
    assert OptionalText("language", request.language) == [];
    assert OptionalText("prompt", request.prompt) == [];
    assert OptionalText("temperature", TemperatureText(request.temperature, show)) == [];
    assert request.timestampGranularities.GetOr([]) == ["word", "segment"];
    var head := [FormField("model", Text("openai/whisper-large-v3-turbo")),
                 FormField("response_format", Text("json")),
                 FormField("file", FileBytes(buffer, fileName))];
    assert Form(request, fs, show).value == head + [] + [] + [] + g;
    assert head + [] + [] + [] + g == head + g;
    assert head + g == [
        FormField("model", Text("openai/whisper-large-v3-turbo")),
        FormField("response_format", Text("json")),
        FormField("file", FileBytes(buffer, fileName)),
        FormField("timestamp_granularities[]", Text("word")),
        FormField("timestamp_granularities[]", Text("segment"))];
  }

  // The answer: a transcription, or one of two error payloads, told apart by shape.

  datatype TranscriptionResponse = TranscriptionResponse(text: string)

  /** One entry of a detailed error; `errorType` is read from the key `type`. */
  datatype ErrorDetail = ErrorDetail(loc: seq<string>, msg: string, errorType: string)

  /** The service's error payload: a message, or a list of entries. */
  datatype ErrorBody =
    | Simple(detail: string)
    | Detailed(details: seq<ErrorDetail>)

  datatype ApiResponse =
    | Transcription(response: TranscriptionResponse)
    | Failure(error: ErrorBody)

  // serde reads a plain struct from an object by key, or from an array
  // holding exactly its fields in declaration order. A struct variant of an
  // untagged enum, such as either error shape, is read from an object only.

  function DecodeStrings(j: Json): (r: Option<seq<string>>)
    ensures r.Some? ==> j.Arr? && |r.value| == |j.items|
  {
    if j.Arr? then DecodeList(j.items, AsString) else None
  }

  function DecodeTranscription(j: Json): (r: Option<TranscriptionResponse>)
    ensures j.Obj? ==> (r.Some? <==> Find(j.members, "text").Found? && Find(j.members, "text").value.Str?)
    ensures j.Obj? && r.Some? ==> Find(j.members, "text") == Found(Str(r.value.text))
  {
    match j
    case Obj(members) =>
      (match Required(members, "text", AsString)
       case Some(text) => Some(TranscriptionResponse(text))
       case None => None)
    case Arr(items) =>
      if |items| == 1 && items[0].Str? then Some(TranscriptionResponse(items[0].s)) else None
    case _ => None
  }

  function DecodeErrorDetail(j: Json): (r: Option<ErrorDetail>)
    ensures r.Some? ==> j.Obj? || (j.Arr? && |j.items| == 3)
    ensures j.Obj? && r.Some? ==>
      && Find(j.members, "loc").Found? && DecodeStrings(Find(j.members, "loc").value) == Some(r.value.loc)
      && Find(j.members, "msg") == Found(Str(r.value.msg))
      && Find(j.members, "type") == Found(Str(r.value.errorType))
    ensures j.Obj? ==>
      (r.Some? <==>
        && Find(j.members, "loc").Found? && DecodeStrings(Find(j.members, "loc").value).Some?
        && Find(j.members, "msg").Found? && Find(j.members, "msg").value.Str?
        && Find(j.members, "type").Found? && Find(j.members, "type").value.Str?)
    ensures j.Arr? && |j.items| == 3 ==>
      (r.Some? <==> DecodeStrings(j.items[0]).Some? && j.items[1].Str? && j.items[2].Str?)
    ensures j.Arr? && r.Some? ==>
      DecodeStrings(j.items[0]) == Some(r.value.loc) && j.items[1] == Str(r.value.msg) && j.items[2] == Str(r.value.errorType)
  {
    match j
    case Obj(members) =>
      (match (Required(members, "loc", DecodeStrings), Required(members, "msg", AsString), Required(members, "type", AsString))
       case (Some(loc), Some(msg), Some(errorType)) => Some(ErrorDetail(loc, msg, errorType))
       case _ => None)
    case Arr(items) =>
      if |items| == 3 then
        (match (DecodeStrings(items[0]), AsString(items[1]), AsString(items[2]))
         case (Some(loc), Some(msg), Some(errorType)) => Some(ErrorDetail(loc, msg, errorType))
         case _ => None)
      else None
    case _ => None
  }

  function DecodeErrorDetails(j: Json): Option<seq<ErrorDetail>> {
    if j.Arr? then DecodeList(j.items, DecodeErrorDetail) else None
  }

  /** The simple error: an object with one string under `detail`. */
  function DecodeSimple(j: Json): (r: Option<string>)
    ensures r.Some? <==> j.Obj? && Find(j.members, "detail").Found? && Find(j.members, "detail").value.Str?
    ensures r.Some? ==> Find(j.members, "detail") == Found(Str(r.value))
  {
    match j
    case Obj(members) => Required(members, "detail", AsString)
    case _ => None
  }

  /** The detailed error: an object with one list of readable entries under `detail`. */
  function DecodeDetailed(j: Json): (r: Option<seq<ErrorDetail>>)
    ensures r.Some? <==>
      && j.Obj? && Find(j.members, "detail").Found? && Find(j.members, "detail").value.Arr?
      && DecodeList(Find(j.members, "detail").value.items, DecodeErrorDetail).Some?
    ensures r.Some? ==> DecodeList(Find(j.members, "detail").value.items, DecodeErrorDetail) == r
  {
    match j
    case Obj(members) => Required(members, "detail", DecodeErrorDetails)
    case _ => None
  }

  /** The untagged decode: the first shape that fits, tried in declaration order. */
  function DecodeApiResponse(j: Json): (r: Option<ApiResponse>)
    ensures DecodeTranscription(j).Some? ==> r == Some(Transcription(DecodeTranscription(j).value))
    ensures r.Some? && r.value.Transcription? ==> DecodeTranscription(j) == Some(r.value.response)
    ensures r.Some? && r.value.Failure? ==>
      DecodeTranscription(j).None? && j.Obj? && Find(j.members, "detail").Found?
    ensures r.Some? && r.value.Failure? && r.value.error.Simple? ==>
      Find(j.members, "detail") == Found(Str(r.value.error.detail))
    ensures r.Some? && r.value.Failure? && r.value.error.Detailed? ==>
      Find(j.members, "detail").value.Arr? && !Find(j.members, "detail").value.Str?
  {
    match DecodeTranscription(j)
    case Some(t) => Some(Transcription(t))
    case None =>
      match DecodeSimple(j)
      case Some(detail) => Some(Failure(Simple(detail)))
      case None =>
        match DecodeDetailed(j)
        case Some(details) => Some(Failure(Detailed(details)))
        case None => None
  }

  /** An entry as the message shows it: the location joined with `.`, a colon, the message. */
  function RenderDetail(d: ErrorDetail): string {
    Strings.Join(d.loc, ".") + ": " + d.msg
  }

  function RenderDetails(details: seq<ErrorDetail>): (r: seq<string>)
    ensures |r| == |details|
  {
    seq(|details|, i requires 0 <= i < |details| => RenderDetail(details[i]))
  }

  /** The single message a detailed error becomes: its entries, rendered, joined with `, `. */
  function FormatDetails(details: seq<ErrorDetail>): (r: string)
    ensures |details| == 0 ==> r == ""
    ensures |details| > 0 ==> RenderDetail(details[0]) <= r
    ensures |details| > 0 ==> |r| == Strings.TotalLength(RenderDetails(details)) + 2 * (|details| - 1)
  {
    var parts := RenderDetails(details);
    if |details| > 0 then
      Strings.JoinLength(parts, ", ");
      Strings.Join(parts, ", ")
    else Strings.Join(parts, ", ")
  }

  /** The operation's result for what the exchange delivered. */
  function Classify(received: Result<Json, TransportFailure>): (r: Result<TranscriptionResponse, AudioTranscriptionError>)
    ensures received.Err? ==> r == Err(ReqwestError(received.error))
    ensures received.Ok? && DecodeApiResponse(received.value).None? ==> r == Err(ReqwestError(DecodeFailed))
    ensures r.Ok? ==> received.Ok? && DecodeApiResponse(received.value) == Some(Transcription(r.value))
    ensures r.Err? ==> !r.error.FileNotFoundError? && !r.error.IoError?
    ensures received.Ok? && DecodeApiResponse(received.value).Some? && DecodeApiResponse(received.value).value.Transcription? ==>
      r == Ok(DecodeApiResponse(received.value).value.response)
    ensures received.Ok? && DecodeApiResponse(received.value).Some? && DecodeApiResponse(received.value).value.Failure?
              && DecodeApiResponse(received.value).value.error.Simple? ==>
      r == Err(ErrorResponse(DecodeApiResponse(received.value).value.error.detail))
    ensures received.Ok? && DecodeApiResponse(received.value).Some? && DecodeApiResponse(received.value).value.Failure?
              && DecodeApiResponse(received.value).value.error.Detailed? ==>
      r == Err(ErrorResponse(FormatDetails(DecodeApiResponse(received.value).value.error.details)))
  {
    match received
    case Err(failure) => Err(ReqwestError(failure))
    case Ok(body) =>
      match DecodeApiResponse(body)
      case None => Err(ReqwestError(DecodeFailed))
      case Some(Transcription(t)) => Ok(t)
      case Some(Failure(Simple(detail))) => Err(ErrorResponse(detail))
      case Some(Failure(Detailed(details))) => Err(ErrorResponse(FormatDetails(details)))
  }

  /** What one call did: the form it sent, if it sent one, and what it returned. */
  datatype Exchange = Exchange(sent: Option<seq<FormField>>, result: Result<TranscriptionResponse, AudioTranscriptionError>)

  /**
    The operation. `server` stands for the HTTP exchange: the parsed body
    of the answer to the form it is given, or the transport failure.
   */
  function Transcribe(
    request: AudioTranscriptionRequest,
    fs: FileSystem,
    show: F32 -> string,
    server: seq<FormField> -> Result<Json, TransportFailure>
  ): (e: Exchange)
    ensures request.source.Filepath? && request.source.path !in fs.existing ==>
      e == Exchange(None, Err(FileNotFoundError(request.source.path)))
    ensures e.sent.None? <==> e.result.Err? && (e.result.error.FileNotFoundError? || e.result.error.IoError?)
    ensures e.sent.Some? ==> Form(request, fs, show) == Ok(e.sent.value) && e.result == Classify(server(e.sent.value))
    ensures e.sent.None? <==> Form(request, fs, show).Err?
    ensures Form(request, fs, show).Err? ==> e.result == Err(Form(request, fs, show).error)
    ensures Form(request, fs, show).Ok? ==> e.sent == Some(Form(request, fs, show).value)
  {
    match Form(request, fs, show)
    case Err(local) => Exchange(None, Err(local))
    case Ok(fields) => Exchange(Some(fields), Classify(server(fields)))
  }

  // Properties of the decode order.

  /** A string `text` wins, whatever else the object holds, a `detail` included. */
  lemma TextWins(members: seq<(string, Json)>, text: string)
    requires Find(members, "text") == Found(Str(text))
    ensures Classify(Ok(Obj(members))) == Ok(TranscriptionResponse(text))
  {
  }

  /** Without a string `text`, a string `detail` is returned verbatim as the error message. */
  lemma SimpleDetailVerbatim(members: seq<(string, Json)>, detail: string)
    requires !(Find(members, "text").Found? && Find(members, "text").value.Str?)
    requires Find(members, "detail") == Found(Str(detail))
    ensures Classify(Ok(Obj(members))) == Err(ErrorResponse(detail))
  {
  }

  /**
    Without a string `text`, a `detail` list of well-formed entries gives
    one message made of the entries in order; the entries' `type` plays
    no part in it.
   */
  lemma DetailedMessage(members: seq<(string, Json)>, items: seq<Json>, details: seq<ErrorDetail>)
    requires !(Find(members, "text").Found? && Find(members, "text").value.Str?)
    requires Find(members, "detail") == Found(Arr(items))
    requires DecodeList(items, DecodeErrorDetail) == Some(details)
    ensures Classify(Ok(Obj(members))) == Err(ErrorResponse(FormatDetails(details)))
  {
    assert DecodeSimple(Obj(members)).None?;
  }

  /**
    An object with no string `text` and a `detail` that is neither a string
    nor a list of readable entries is a transport error, not an API error.
   */
  lemma NoShapeIsTransportError(members: seq<(string, Json)>)
    requires !(Find(members, "text").Found? && Find(members, "text").value.Str?)
    requires Find(members, "detail").Found? ==>
      && !Find(members, "detail").value.Str?
      && DecodeErrorDetails(Find(members, "detail").value).None?
    ensures Classify(Ok(Obj(members))) == Err(ReqwestError(DecodeFailed))
  {
  }

  /**
    serde also reads a plain struct from an array of its fields, so a
    one-string array fits the transcription shape; neither error shape,
    being a struct variant of an untagged enum, reads from an array.
   */
  lemma OneStringArrayIsTranscription(s: string)
    ensures Classify(Ok(Arr([Str(s)]))) == Ok(TranscriptionResponse(s))
    ensures DecodeSimple(Arr([Str(s)])).None? && DecodeDetailed(Arr([Str(s)])).None?
  {
  }

  /** A string, number, boolean or `null` body fits no shape: a transport error. */
  lemma ScalarBodyIsTransportError(j: Json)
    requires !j.Obj? && !j.Arr?
    ensures Classify(Ok(j)) == Err(ReqwestError(DecodeFailed))
  {
  }

  /** Any other array, a one-element array of entries included, is a transport error, never an error response. */
  lemma OtherArrayIsTransportError(items: seq<Json>)
    requires !(|items| == 1 && items[0].Str?)
    ensures Classify(Ok(Arr(items))) == Err(ReqwestError(DecodeFailed))
  {
  }

  // The message of a detailed error.

  lemma FormatDetailsEmpty()
    ensures FormatDetails([]) == ""
  {
  }

  /** Two runs of entries give their two messages joined with `, `: list order is kept. */
  lemma FormatDetailsConcat(xs: seq<ErrorDetail>, ys: seq<ErrorDetail>)
    requires |xs| > 0 && |ys| > 0
    ensures FormatDetails(xs + ys) == FormatDetails(xs) + ", " + FormatDetails(ys)
  {
    assert RenderDetails(xs + ys) == RenderDetails(xs) + RenderDetails(ys);
    Strings.JoinConcat(RenderDetails(xs), RenderDetails(ys), ", ");
  }

  /** The message depends on each entry's location and message only, never on its `type`. */
  lemma FormatDetailsIgnoresType(xs: seq<ErrorDetail>, ys: seq<ErrorDetail>)
    requires |xs| == |ys|
    requires forall i :: 0 <= i < |xs| ==> xs[i].loc == ys[i].loc && xs[i].msg == ys[i].msg
    ensures FormatDetails(xs) == FormatDetails(ys)
  {
    assert RenderDetails(xs) == RenderDetails(ys);
  }

  /** A location whose segments hold no `.` can be recovered from the message's dotted path. */
  lemma DottedPathRecoverable(d: ErrorDetail)
    requires |d.loc| > 0
    requires forall i :: 0 <= i < |d.loc| ==> '.' !in d.loc[i]
    ensures Strings.Split(RenderDetail(d)[..|Strings.Join(d.loc, ".")|], '.') == d.loc
  {
    var path := Strings.Join(d.loc, ".");
    assert RenderDetail(d)[..|path|] == path;
    Strings.SplitJoin(d.loc, '.');
  }

  // Writing the three shapes, as the service sends them.

  function EncodeErrorDetail(d: ErrorDetail): Json {
    Obj([("loc", Arr(EncodeList(d.loc, EncodeString))), ("msg", Str(d.msg)), ("type", Str(d.errorType))])
  }

  function EncodeApiResponse(r: ApiResponse): Json {
    match r
    case Transcription(t) => Obj([("text", Str(t.text))])
    case Failure(Simple(detail)) => Obj([("detail", Str(detail))])
    case Failure(Detailed(details)) => Obj([("detail", Arr(EncodeList(details, EncodeErrorDetail)))])
  }

  lemma ErrorDetailRoundTrip(d: ErrorDetail)
    ensures DecodeErrorDetail(EncodeErrorDetail(d)) == Some(d)
  {
    var members := EncodeErrorDetail(d).members;
    assert Distinct(Keys(members));
    FindDistinct(members, 0);
    FindDistinct(members, 1);
    FindDistinct(members, 2);
    ListRoundTrip(d.loc, EncodeString, AsString);
  }

  /** Each of the three shapes, written as the service writes it, is read back as itself: no shape hides another. */
  lemma ApiResponseRoundTrip(r: ApiResponse)
    ensures DecodeApiResponse(EncodeApiResponse(r)) == Some(r)
  {
    var members := EncodeApiResponse(r).members;
    FindDistinct(members, 0);
    if r.Failure? {
      FindAbsent(members, "text");
    }
    if r.Failure? && r.error.Detailed? {
      forall i | 0 <= i < |r.error.details|
        ensures DecodeErrorDetail(EncodeErrorDetail(r.error.details[i])) == Some(r.error.details[i])
      {
        ErrorDetailRoundTrip(r.error.details[i]);
      }
      ListRoundTrip(r.error.details, EncodeErrorDetail, DecodeErrorDetail);
    }
  }

  // The answers used as examples for the service.

  lemma ExampleTranscription()
    ensures Classify(Ok(Obj([("text", Str("hello"))]))) == Ok(TranscriptionResponse("hello"))
  {
    TextWins([("text", Str("hello"))], "hello");
  }

  lemma ExampleSimpleError()
    ensures Classify(Ok(Obj([("detail", Str("bad request"))]))) == Err(ErrorResponse("bad request"))
  {
    SimpleDetailVerbatim([("detail", Str("bad request"))], "bad request");
  }

  lemma ExampleDetailDecodes()
    ensures DecodeList([Obj([("loc", Arr([Str("body"), Str("language")])), ("msg", Str("invalid")), ("type", Str("value_error"))])],
                       DecodeErrorDetail)
            == Some([ErrorDetail(["body", "language"], "invalid", "value_error")])
  {
    var d := ErrorDetail(["body", "language"], "invalid", "value_error");
    var loc := EncodeList(d.loc, EncodeString);
    assert loc[0] == EncodeString("body") && loc[1] == EncodeString("language");
    assert loc == [Str("body"), Str("language")];
    ErrorDetailRoundTrip(d);
    ListRoundTrip([d], EncodeErrorDetail, DecodeErrorDetail);
    assert EncodeList([d], EncodeErrorDetail) == [EncodeErrorDetail(d)];
  }

  /** An entry reads from its fields in any order, with an unknown key ignored. */
  lemma ExampleEntryAnyOrder()
    ensures DecodeErrorDetail(Obj([("type", Str("t")), ("input", Null), ("msg", Str("m")), ("loc", Arr([Str("a")]))]))
         == Some(ErrorDetail(["a"], "m", "t"))
  {
    var members := [("type", Str("t")), ("input", Null), ("msg", Str("m")), ("loc", Arr([Str("a")]))];
    FindDistinct(members, 0);
    FindDistinct(members, 2);
    FindDistinct(members, 3);
    assert Find(members, "loc") == Found(Arr([Str("a")]));
    assert Find(members, "msg") == Found(Str("m"));
    assert Find(members, "type") == Found(Str("t"));
    var loc := EncodeList(["a"], EncodeString);
    assert loc[0] == EncodeString("a");
    assert loc == [Str("a")];
    ListRoundTrip(["a"], EncodeString, AsString);
    assert DecodeStrings(Arr([Str("a")])) == Some(["a"]);
  }

  lemma ExampleDetailMessage()
    ensures FormatDetails([ErrorDetail(["body", "language"], "invalid", "value_error")]) == "body.language: invalid"
  {
    var d := ErrorDetail(["body", "language"], "invalid", "value_error");
    assert Strings.Join(["language"], ".") == "language";
    assert Strings.Join(["body", "language"], ".") == "body" + "." + "language";
    assert RenderDetail(d) == "body.language: invalid";
    assert RenderDetails([d]) == ["body.language: invalid"];
  }

  lemma ExampleDetailedError()
    ensures Classify(Ok(Obj([("detail", Arr([Obj([("loc", Arr([Str("body"), Str("language")])),
                                                   ("msg", Str("invalid")),
                                                   ("type", Str("value_error"))])]))])))
            == Err(ErrorResponse("body.language: invalid"))
  {
    var entry := Obj([("loc", Arr([Str("body"), Str("language")])), ("msg", Str("invalid")), ("type", Str("value_error"))]);
    ExampleDetailDecodes();
    DetailedMessage([("detail", Arr([entry]))], [entry], [ErrorDetail(["body", "language"], "invalid", "value_error")]);
    ExampleDetailMessage();
  }
}

=== FILE: chat_completion.dfy ===
/**
  The chat completion operation: the request body and its builder
  defaults, the role-tagged message encoding, tools and response formats
  with their serde defaults, and the reading of the answer. Every failure
  of the operation is one `ReqwestError`; there is no error payload of
  the service's own on this path.
 */
module ChatCompletion {
  import opened Wrappers
  import opened Transport
  import opened Json

  // Messages.

  datatype SystemMessage = SystemMessage(content: string, name: Option<string>)
  datatype UserMessage = UserMessage(content: string, name: Option<string>)
  datatype AssistantMessage = AssistantMessage(content: string, name: Option<string>, toolCalls: Option<seq<ToolCall>>)
  datatype ToolMessage = ToolMessage(content: string, toolCallId: string)

  /** A message of one of four roles; the role written to JSON follows from the variant alone. */
  datatype Message =
    | System(systemMessage: SystemMessage)
    | User(userMessage: UserMessage)
    | Assistant(assistantMessage: AssistantMessage)
    | Tool(toolMessage: ToolMessage)

  /** A call the model made: `arguments` is the model's text, kept as it is and never parsed. */
  datatype FunctionCall = FunctionCall(name: string, arguments: string)

  /** A tool call; `kind` is written under the key `type` and the call under `function`. */
  datatype ToolCall = ToolCall(id: string, kind: string, call: FunctionCall)

  /** The role tag of each variant, in snake case. */
  function Role(m: Message): string {
    match m
    case System(_) => "system"
    case User(_) => "user"
    case Assistant(_) => "assistant"
    case Tool(_) => "tool"
  }

  function EncodeFunctionCall(c: FunctionCall): Json {
    Obj([("name", Str(c.name)), ("arguments", Str(c.arguments))])
  }

  function EncodeToolCall(t: ToolCall): Json {
    Obj([("id", Str(t.id)), ("type", Str(t.kind)), ("function", EncodeFunctionCall(t.call))])
  }

  function EncodeToolCalls(ts: seq<ToolCall>): Json {
    Arr(EncodeList(ts, EncodeToolCall))
  }

  /**
    An internally tagged message: `role` first, then the variant's own
    fields in declaration order, `None` written as `null`.
   */
  function EncodeMessage(m: Message): (r: Json)
    ensures r.Obj? && |r.members| >= 3
    ensures r.members[0] == ("role", Str(Role(m)))
    ensures Distinct(Keys(r.members))
  {
    match m
    case System(s) =>
      Obj([("role", Str("system")), ("content", Str(s.content)), ("name", EncodeOptional(s.name, EncodeString))])
    case User(u) =>
      Obj([("role", Str("user")), ("content", Str(u.content)), ("name", EncodeOptional(u.name, EncodeString))])
    case Assistant(a) =>
      Obj([("role", Str("assistant")), ("content", Str(a.content)), ("name", EncodeOptional(a.name, EncodeString)),
           ("tool_calls", EncodeOptional(a.toolCalls, EncodeToolCalls))])
    case Tool(t) =>
      Obj([("role", Str("tool")), ("content", Str(t.content)), ("tool_call_id", Str(t.toolCallId))])
  }

  function DecodeFunctionCall(j: Json): Option<FunctionCall> {
    match j
    case Obj(members) =>
      (match (Required(members, "name", AsString), Required(members, "arguments", AsString))
       case (Some(name), Some(arguments)) => Some(FunctionCall(name, arguments))
       case _ => None)
    case _ => None
  }

  function DecodeToolCall(j: Json): Option<ToolCall> {
    match j
    case Obj(members) =>
      (match (Required(members, "id", AsString), Required(members, "type", AsString),
              Required(members, "function", DecodeFunctionCall))
       case (Some(id), Some(kind), Some(call)) => Some(ToolCall(id, kind, call))
       case _ => None)
    case _ => None
  }

  function DecodeToolCalls(j: Json): Option<seq<ToolCall>> {
    if j.Arr? then DecodeList(j.items, DecodeToolCall) else None
  }

  /**
    Reading a message: the unique `role` key, a string, picks the variant,
    whose fields are then read from the same object. `role` is not a field
    of any variant, so reading the fields from the object with `role`
    still in it finds what serde finds after taking the tag out.
   */
  function DecodeMessage(j: Json): (r: Option<Message>)
    ensures r.Some? ==> j.Obj? && Find(j.members, "role") == Found(Str(Role(r.value)))
    ensures r.Some? ==> (r.value.System? <==> Find(j.members, "role") == Found(Str("system")))
    ensures r.Some? ==> (r.value.User? <==> Find(j.members, "role") == Found(Str("user")))
    ensures r.Some? ==> (r.value.Assistant? <==> Find(j.members, "role") == Found(Str("assistant")))
    ensures r.Some? ==> (r.value.Tool? <==> Find(j.members, "role") == Found(Str("tool")))
    // Each variant reads from any object carrying its tag and readable fields, in any order, other keys ignored.
    ensures j.Obj? && Find(j.members, "role") == Found(Str("system")) ==>
      (r.Some? <==> Required(j.members, "content", AsString).Some? && Optional(j.members, "name", AsString).Some?)
    ensures r.Some? && r.value.System? ==>
      && Required(j.members, "content", AsString) == Some(r.value.systemMessage.content)
      && Optional(j.members, "name", AsString) == Some(r.value.systemMessage.name)
    ensures j.Obj? && Find(j.members, "role") == Found(Str("user")) ==>
      (r.Some? <==> Required(j.members, "content", AsString).Some? && Optional(j.members, "name", AsString).Some?)
    ensures r.Some? && r.value.User? ==>
      && Required(j.members, "content", AsString) == Some(r.value.userMessage.content)
      && Optional(j.members, "name", AsString) == Some(r.value.userMessage.name)
    ensures j.Obj? && Find(j.members, "role") == Found(Str("assistant")) ==>
      (r.Some? <==>
        && Required(j.members, "content", AsString).Some? && Optional(j.members, "name", AsString).Some?
        && Optional(j.members, "tool_calls", DecodeToolCalls).Some?)
    ensures r.Some? && r.value.Assistant? ==>
      && Required(j.members, "content", AsString) == Some(r.value.assistantMessage.content)
      && Optional(j.members, "name", AsString) == Some(r.value.assistantMessage.name)
      && Optional(j.members, "tool_calls", DecodeToolCalls) == Some(r.value.assistantMessage.toolCalls)
    ensures j.Obj? && Find(j.members, "role") == Found(Str("tool")) ==>
      (r.Some? <==> Required(j.members, "content", AsString).Some? && Required(j.members, "tool_call_id", AsString).Some?)
    ensures r.Some? && r.value.Tool? ==>
      && Required(j.members, "content", AsString) == Some(r.value.toolMessage.content)
      && Required(j.members, "tool_call_id", AsString) == Some(r.value.toolMessage.toolCallId)
  {
    match j
    case Obj(members) =>
      (match Find(members, "role")
       case Found(Str(role)) =>
         if role == "system" then
           (match (Required(members, "content", AsString), Optional(members, "name", AsString))
            case (Some(content), Some(name)) => Some(System(SystemMessage(content, name)))
            case _ => None)
         else if role == "user" then
           (match (Required(members, "content", AsString), Optional(members, "name", AsString))
            case (Some(content), Some(name)) => Some(User(UserMessage(content, name)))
            case _ => None)
         else if role == "assistant" then
           (match (Required(members, "content", AsString), Optional(members, "name", AsString),
                   Optional(members, "tool_calls", DecodeToolCalls))
            case (Some(content), Some(name), Some(toolCalls)) => Some(Assistant(AssistantMessage(content, name, toolCalls)))
            case _ => None)
         else if role == "tool" then
           (match (Required(members, "content", AsString), Required(members, "tool_call_id", AsString))
            case (Some(content), Some(toolCallId)) => Some(Tool(ToolMessage(content, toolCallId)))
            case _ => None)
         else None
       case _ => None)
    case _ => None
  }

  lemma FunctionCallRoundTrip(c: FunctionCall)
    ensures DecodeFunctionCall(EncodeFunctionCall(c)) == Some(c)
  {
    var members := EncodeFunctionCall(c).members;
    assert Distinct(Keys(members));
    FindDistinct(members, 0);
    FindDistinct(members, 1);
  }

  /** A tool call reads back as itself: id, type and the arguments text unchanged. */
  lemma ToolCallRoundTrip(t: ToolCall)
    ensures DecodeToolCall(EncodeToolCall(t)) == Some(t)
  {
    var members := EncodeToolCall(t).members;
    assert Distinct(Keys(members));
    FindDistinct(members, 0);
    FindDistinct(members, 1);
    FindDistinct(members, 2);
    FunctionCallRoundTrip(t.call);
  }

  lemma ToolCallsRoundTrip(ts: seq<ToolCall>)
    ensures DecodeToolCalls(EncodeToolCalls(ts)) == Some(ts)
  {
    forall i | 0 <= i < |ts| ensures DecodeToolCall(EncodeToolCall(ts[i])) == Some(ts[i]) {
      ToolCallRoundTrip(ts[i]);
    }
    ListRoundTrip(ts, EncodeToolCall, DecodeToolCall);
  }

  lemma SystemRoundTrip(s: SystemMessage)
    ensures DecodeMessage(EncodeMessage(System(s))) == Some(System(s))
  {
    var members := EncodeMessage(System(s)).members;
    assert Distinct(Keys(members));
    FindDistinct(members, 0);
    FindDistinct(members, 1);
    FindDistinct(members, 2);
    OptionalRoundTrip(members, "name", s.name, EncodeString, AsString);
  }

  lemma UserRoundTrip(u: UserMessage)
    ensures DecodeMessage(EncodeMessage(User(u))) == Some(User(u))
  {
    var members := EncodeMessage(User(u)).members;
    assert Distinct(Keys(members));
    FindDistinct(members, 0);
    FindDistinct(members, 1);
    FindDistinct(members, 2);
    OptionalRoundTrip(members, "name", u.name, EncodeString, AsString);
  }

  lemma AssistantRoundTrip(a: AssistantMessage)
    ensures DecodeMessage(EncodeMessage(Assistant(a))) == Some(Assistant(a))
  {
    var members := EncodeMessage(Assistant(a)).members;
    assert Distinct(Keys(members));
    FindDistinct(members, 0);
    FindDistinct(members, 1);
    FindDistinct(members, 2);
    FindDistinct(members, 3);
    OptionalRoundTrip(members, "name", a.name, EncodeString, AsString);
    if a.toolCalls.Some? {
      ToolCallsRoundTrip(a.toolCalls.value);
    }
    OptionalRoundTrip(members, "tool_calls", a.toolCalls, EncodeToolCalls, DecodeToolCalls);
  }

  lemma ToolRoundTrip(t: ToolMessage)
    ensures DecodeMessage(EncodeMessage(Tool(t))) == Some(Tool(t))
  {
    var members := EncodeMessage(Tool(t)).members;
    assert Distinct(Keys(members));
    FindDistinct(members, 0);
    FindDistinct(members, 1);
    FindDistinct(members, 2);
  }

  /** Each variant is written with its role tag, and reading the written message gives the message back. */
  lemma MessageRoundTrip(m: Message)
    ensures EncodeMessage(m).members[0] == ("role", Str(Role(m)))
    ensures DecodeMessage(EncodeMessage(m)) == Some(m)
  {
    match m
    case System(s) => SystemRoundTrip(s);
    case User(u) => UserRoundTrip(u);
    case Assistant(a) => AssistantRoundTrip(a);
    case Tool(t) => ToolRoundTrip(t);
  }

  lemma MessagesRoundTrip(messages: seq<Message>)
    ensures DecodeList(EncodeList(messages, EncodeMessage), DecodeMessage) == Some(messages)
  {
    forall i | 0 <= i < |messages| ensures DecodeMessage(EncodeMessage(messages[i])) == Some(messages[i]) {
      MessageRoundTrip(messages[i]);
    }
    ListRoundTrip(messages, EncodeMessage, DecodeMessage);
  }

  /** Field order does not matter and an unknown key is ignored: the tag may come last. */
  lemma ExampleReorderedMessage()
    ensures DecodeMessage(Obj([("content", Str("hi")), ("extra", Int(1)), ("role", Str("user"))]))
         == Some(User(UserMessage("hi", None)))
  {
    var members := [("content", Str("hi")), ("extra", Int(1)), ("role", Str("user"))];
    FindAbsent(members, "name");
  }

  /** An object without a usable role tag is not a message. */
  lemma NoRoleNoMessage(members: seq<(string, Json)>)
    requires Find(members, "role").Missing? || Find(members, "role").Repeated?
      || !(Find(members, "role").value.Str? && Find(members, "role").value.s in {"system", "user", "assistant", "tool"})
    ensures DecodeMessage(Obj(members)).None?
  {
  }

  // Tools and response formats.

  /**
    A function the model may call. `parameters` is a `serde_json::Value`,
    held here as the parsed tree: repeated keys and key order inside it are
    kept as they were read.
   */
  datatype FunctionDefinition = FunctionDefinition(name: string, description: string, parameters: Json)

  /** A tool; `kind` is written under the key `type` and defaults to `"function"` when read. */
  datatype ChatTool = ChatTool(kind: string, definition: FunctionDefinition)

  const DefaultToolType: string := "function"

  datatype ResponseFormatType = Text | JsonObject

  /** `responseType` is written under the key `type` and defaults to `Text` when read. */
  datatype ResponseFormat = ResponseFormat(responseType: ResponseFormatType)

  function AnyJson(j: Json): Option<Json> {
    Some(j)
  }

  function EncodeFunctionDefinition(d: FunctionDefinition): Json {
    Obj([("name", Str(d.name)), ("description", Str(d.description)), ("parameters", d.parameters)])
  }

  function EncodeChatTool(t: ChatTool): Json {
    Obj([("type", Str(t.kind)), ("function", EncodeFunctionDefinition(t.definition))])
  }

  function EncodeResponseFormatType(t: ResponseFormatType): Json {
    match t
    case Text => Str("text")
    case JsonObject => Str("json_object")
  }

  function EncodeResponseFormat(f: ResponseFormat): Json {
    Obj([("type", EncodeResponseFormatType(f.responseType))])
  }

  function DecodeFunctionDefinition(j: Json): Option<FunctionDefinition> {
    match j
    case Obj(members) =>
      (match (Required(members, "name", AsString), Required(members, "description", AsString),
              Required(members, "parameters", AnyJson))
       case (Some(name), Some(description), Some(parameters)) => Some(FunctionDefinition(name, description, parameters))
       case _ => None)
    case _ => None
  }

  function DecodeChatTool(j: Json): Option<ChatTool> {
    match j
    case Obj(members) =>
      (match (Defaulted(members, "type", AsString, DefaultToolType), Required(members, "function", DecodeFunctionDefinition))
       case (Some(kind), Some(definition)) => Some(ChatTool(kind, definition))
       case _ => None)
    case _ => None
  }

  /** A unit variant is read from its snake-case name. */
  function DecodeResponseFormatType(j: Json): (r: Option<ResponseFormatType>)
    ensures r.Some? <==> j == Str("text") || j == Str("json_object")
  {
    if j == Str("text") then Some(Text)
    else if j == Str("json_object") then Some(JsonObject)
    else None
  }

  function DecodeResponseFormat(j: Json): Option<ResponseFormat> {
    match j
    case Obj(members) =>
      (match Defaulted(members, "type", DecodeResponseFormatType, Text)
       case Some(t) => Some(ResponseFormat(t))
       case None => None)
    case _ => None
  }

  lemma FunctionDefinitionRoundTrip(d: FunctionDefinition)
    ensures DecodeFunctionDefinition(EncodeFunctionDefinition(d)) == Some(d)
  {
    var members := EncodeFunctionDefinition(d).members;
    assert Distinct(Keys(members));
    FindDistinct(members, 0);
    FindDistinct(members, 1);
    FindDistinct(members, 2);
  }

  /** A tool is written with its type under `type`, and reads back as itself. */
  lemma ChatToolRoundTrip(t: ChatTool)
    ensures EncodeChatTool(t).members[0] == ("type", Str(t.kind))
    ensures DecodeChatTool(EncodeChatTool(t)) == Some(t)
  {
    var members := EncodeChatTool(t).members;
    assert Distinct(Keys(members));
    FindDistinct(members, 0);
    FindDistinct(members, 1);
    FunctionDefinitionRoundTrip(t.definition);
  }

  /** A tool object without a `type` key is read as a `"function"` tool. */
  lemma ToolTypeDefaultsToFunction(members: seq<(string, Json)>, d: FunctionDefinition)
    requires Find(members, "type").Missing?
    requires Find(members, "function") == Found(EncodeFunctionDefinition(d))
    ensures DecodeChatTool(Obj(members)) == Some(ChatTool("function", d))
  {
    FunctionDefinitionRoundTrip(d);
  }

  /** The two formats are written as `"text"` and `"json_object"`, and each reads back as itself. */
  lemma ResponseFormatRoundTrip(f: ResponseFormat)
    ensures EncodeResponseFormat(f) == Obj([("type", Str(if f.responseType.Text? then "text" else "json_object"))])
    ensures DecodeResponseFormat(EncodeResponseFormat(f)) == Some(f)
  {
  }

  /** A response format object without a `type` key is read as `Text`. */
  lemma ResponseFormatDefaultsToText(members: seq<(string, Json)>)
    requires Find(members, "type").Missing?
    ensures DecodeResponseFormat(Obj(members)) == Some(ResponseFormat(Text))
  {
  }

  // The request.

  datatype ChatCompletionRequest = ChatCompletionRequest(
    frequencyPenalty: F64,
    maxTokens: U32,
    messages: seq<Message>,
    minP: F64,
    model: string,
    n: U32,
    presencePenalty: F64,
    repetitionPenalty: F64,
    responseFormat: Option<ResponseFormat>,
    seed: Option<U64>,
    stop: Option<seq<string>>,
    stream: bool,
    temperature: F64,
    toolChoice: Option<string>,
    tools: Option<seq<ChatTool>>,
    topK: U32,
    topP: F64,
    user: Option<string>)

  /** The request builder: every field the caller may leave unset. `messages` has no default. */
  datatype RequestBuilder = RequestBuilder(
    frequencyPenalty: Option<F64>,
    maxTokens: Option<U32>,
    minP: Option<F64>,
    model: Option<string>,
    n: Option<U32>,
    presencePenalty: Option<F64>,
    repetitionPenalty: Option<F64>,
    responseFormat: Option<ResponseFormat>,
    seed: Option<U64>,
    stop: Option<seq<string>>,
    stream: Option<bool>,
    temperature: Option<F64>,
    toolChoice: Option<string>,
    tools: Option<seq<ChatTool>>,
    topK: Option<U32>,
    topP: Option<F64>,
    user: Option<string>)

  const EmptyBuilder: RequestBuilder :=
    RequestBuilder(None, None, None, None, None, None, None, None, None, None, None, None, None, None, None, None, None)

  /** The binary64 patterns of 0.0 and 1.0. */
  const Zero: F64 := F64(0)
  const One: F64 := F64(0x3FF0_0000_0000_0000)

  const DefaultModel: string := "deepseek-ai/DeepSeek-V3"

  /** The request the builder finishes with: unset fields with a builder default take it, the other optional fields stay `None`. */
  function Build(b: RequestBuilder, messages: seq<Message>): (r: ChatCompletionRequest)
    ensures r.messages == messages
    ensures b.maxTokens.None? ==> r.maxTokens == 100000
    ensures b.n.None? ==> r.n == 1
    ensures b.topK.None? ==> r.topK == 0
    ensures b.stream.None? ==> !r.stream
    ensures b.model.None? ==> r.model == DefaultModel
    ensures b.frequencyPenalty.None? ==> r.frequencyPenalty == Zero
    ensures b.minP.None? ==> r.minP == Zero
    ensures b.presencePenalty.None? ==> r.presencePenalty == Zero
    ensures b.repetitionPenalty.None? ==> r.repetitionPenalty == One
    ensures b.temperature.None? ==> r.temperature == One
    ensures b.topP.None? ==> r.topP == One
    ensures b.maxTokens.Some? ==> r.maxTokens == b.maxTokens.value
    ensures b.n.Some? ==> r.n == b.n.value
    ensures b.topK.Some? ==> r.topK == b.topK.value
    ensures b.stream.Some? ==> r.stream == b.stream.value
    ensures b.model.Some? ==> r.model == b.model.value
    ensures b.frequencyPenalty.Some? ==> r.frequencyPenalty == b.frequencyPenalty.value
    ensures b.minP.Some? ==> r.minP == b.minP.value
    ensures b.presencePenalty.Some? ==> r.presencePenalty == b.presencePenalty.value
    ensures b.repetitionPenalty.Some? ==> r.repetitionPenalty == b.repetitionPenalty.value
    ensures b.temperature.Some? ==> r.temperature == b.temperature.value
    ensures b.topP.Some? ==> r.topP == b.topP.value
    ensures r.responseFormat == b.responseFormat && r.seed == b.seed && r.stop == b.stop
    ensures r.toolChoice == b.toolChoice && r.tools == b.tools && r.user == b.user
  {
    ChatCompletionRequest(
      b.frequencyPenalty.GetOr(Zero),
      b.maxTokens.GetOr(100000),
      messages,
      b.minP.GetOr(Zero),
      b.model.GetOr(DefaultModel),
      b.n.GetOr(1),
      b.presencePenalty.GetOr(Zero),
      b.repetitionPenalty.GetOr(One),
      b.responseFormat,
      b.seed,
      b.stop,
      b.stream.GetOr(false),
      b.temperature.GetOr(One),
      b.toolChoice,
      b.tools,
      b.topK.GetOr(0),
      b.topP.GetOr(One),
      b.user)
  }

  function EncodeU32(x: U32): Json {
    Int(x as int)
  }

  function EncodeU64(x: U64): Json {
    Int(x as int)
  }

  function EncodeF64(x: F64): Json {
    Float(x)
  }

  function EncodeStrings(xs: seq<string>): Json {
    Arr(EncodeList(xs, EncodeString))
  }

  function EncodeChatTools(ts: seq<ChatTool>): Json {
    Arr(EncodeList(ts, EncodeChatTool))
  }

  /** The request body keys, in the order serde writes the fields. */
  const RequestKeys: seq<string> := [
    "frequency_penalty", "max_tokens", "messages", "min_p", "model", "n",
    "presence_penalty", "repetition_penalty", "response_format", "seed", "stop", "stream",
    "temperature", "tool_choice", "tools", "top_k", "top_p", "user"]

  /** The request body: every field, in declaration order, each `None` written as `null`. */
  function EncodeRequest(r: ChatCompletionRequest): (j: Json)
    ensures j.Obj? && Keys(j.members) == RequestKeys
    ensures Distinct(Keys(j.members))
  {
    Obj([
      ("frequency_penalty", EncodeF64(r.frequencyPenalty)),
      ("max_tokens", EncodeU32(r.maxTokens)),
      ("messages", Arr(EncodeList(r.messages, EncodeMessage))),
      ("min_p", EncodeF64(r.minP)),
      ("model", Str(r.model)),
      ("n", EncodeU32(r.n)),
      ("presence_penalty", EncodeF64(r.presencePenalty)),
      ("repetition_penalty", EncodeF64(r.repetitionPenalty)),
      ("response_format", EncodeOptional(r.responseFormat, EncodeResponseFormat)),
      ("seed", EncodeOptional(r.seed, EncodeU64)),
      ("stop", EncodeOptional(r.stop, EncodeStrings)),
      ("stream", Bool(r.stream)),
      ("temperature", EncodeF64(r.temperature)),
      ("tool_choice", EncodeOptional(r.toolChoice, EncodeString)),
      ("tools", EncodeOptional(r.tools, EncodeChatTools)),
      ("top_k", EncodeU32(r.topK)),
      ("top_p", EncodeF64(r.topP)),
      ("user", EncodeOptional(r.user, EncodeString))])
  }

  /** The value written under `key`, for a key of the request body. */
  lemma RequestField(r: ChatCompletionRequest, i: int)
    requires 0 <= i < |RequestKeys|
    ensures Find(EncodeRequest(r).members, RequestKeys[i]) == Found(EncodeRequest(r).members[i].1)
  {
    FindDistinct(EncodeRequest(r).members, i);
  }

  /** Every field of the request, set or defaulted, is written under its own key with its own value. */
  lemma RequestFields(r: ChatCompletionRequest)
    ensures var members := EncodeRequest(r).members;
      && Find(members, "frequency_penalty") == Found(Float(r.frequencyPenalty))
      && Find(members, "max_tokens") == Found(Int(r.maxTokens as int))
      && Find(members, "messages") == Found(Arr(EncodeList(r.messages, EncodeMessage)))
      && Find(members, "min_p") == Found(Float(r.minP))
      && Find(members, "model") == Found(Str(r.model))
      && Find(members, "n") == Found(Int(r.n as int))
      && Find(members, "presence_penalty") == Found(Float(r.presencePenalty))
      && Find(members, "repetition_penalty") == Found(Float(r.repetitionPenalty))
      && Find(members, "response_format") == Found(EncodeOptional(r.responseFormat, EncodeResponseFormat))
      && Find(members, "seed") == Found(EncodeOptional(r.seed, EncodeU64))
      && Find(members, "stop") == Found(EncodeOptional(r.stop, EncodeStrings))
      && Find(members, "stream") == Found(Bool(r.stream))
      && Find(members, "temperature") == Found(Float(r.temperature))
      && Find(members, "tool_choice") == Found(EncodeOptional(r.toolChoice, EncodeString))
      && Find(members, "tools") == Found(EncodeOptional(r.tools, EncodeChatTools))
      && Find(members, "top_k") == Found(Int(r.topK as int))
      && Find(members, "top_p") == Found(Float(r.topP))
      && Find(members, "user") == Found(EncodeOptional(r.user, EncodeString))
  {
    RequestField(r, 0);
    RequestField(r, 1);
    RequestField(r, 2);
    RequestField(r, 3);
    RequestField(r, 4);
    RequestField(r, 5);
    RequestField(r, 6);
    RequestField(r, 7);
    RequestField(r, 8);
    RequestField(r, 9);
    RequestField(r, 10);
    RequestField(r, 11);
    RequestField(r, 12);
    RequestField(r, 13);
    RequestField(r, 14);
    RequestField(r, 15);
    RequestField(r, 16);
    RequestField(r, 17);
  }

  /**
    A request built with nothing set but its messages carries the builder
    defaults, and writes every optional field without a default as `null`.
   */
  lemma DefaultRequestValues(messages: seq<Message>)
    ensures var members := EncodeRequest(Build(EmptyBuilder, messages)).members;
      && Find(members, "frequency_penalty") == Found(Float(Zero))
      && Find(members, "max_tokens") == Found(Int(100000))
      && Find(members, "messages") == Found(Arr(EncodeList(messages, EncodeMessage)))
      && Find(members, "min_p") == Found(Float(Zero))
      && Find(members, "model") == Found(Str("deepseek-ai/DeepSeek-V3"))
      && Find(members, "n") == Found(Int(1))
      && Find(members, "presence_penalty") == Found(Float(Zero))
      && Find(members, "repetition_penalty") == Found(Float(One))
      && Find(members, "stream") == Found(Bool(false))
      && Find(members, "temperature") == Found(Float(One))
      && Find(members, "top_k") == Found(Int(0))
      && Find(members, "top_p") == Found(Float(One))
      && Find(members, "response_format") == Found(Null)
      && Find(members, "seed") == Found(Null)
      && Find(members, "stop") == Found(Null)
      && Find(members, "tool_choice") == Found(Null)
      && Find(members, "tools") == Found(Null)
      && Find(members, "user") == Found(Null)
  {
    var r := Build(EmptyBuilder, messages);
    UnsetOptionalsAreNull(r);
    RequestField(r, 0);
    RequestField(r, 1);
    RequestField(r, 2);
    RequestField(r, 3);
    RequestField(r, 4);
    RequestField(r, 5);
    RequestField(r, 6);
    RequestField(r, 7);
    RequestField(r, 11);
    RequestField(r, 12);
    RequestField(r, 15);
    RequestField(r, 16);
  }

  /** Each optional field left unset is written as `null`, not left out. */
  lemma UnsetOptionalsAreNull(r: ChatCompletionRequest)
    ensures var members := EncodeRequest(r).members;
      && (r.responseFormat.None? ==> Find(members, "response_format") == Found(Null))
      && (r.seed.None? ==> Find(members, "seed") == Found(Null))
      && (r.stop.None? ==> Find(members, "stop") == Found(Null))
      && (r.toolChoice.None? ==> Find(members, "tool_choice") == Found(Null))
      && (r.tools.None? ==> Find(members, "tools") == Found(Null))
      && (r.user.None? ==> Find(members, "user") == Found(Null))
  {
    RequestField(r, 8);
    RequestField(r, 9);
    RequestField(r, 10);
    RequestField(r, 13);
    RequestField(r, 14);
    RequestField(r, 17);
  }

  /** The messages a request carries, read back from its body, are the messages in order, each with its role. */
  lemma RequestMessagesRoundTrip(r: ChatCompletionRequest)
    ensures Find(EncodeRequest(r).members, "messages") == Found(Arr(EncodeList(r.messages, EncodeMessage)))
    ensures DecodeList(EncodeList(r.messages, EncodeMessage), DecodeMessage) == Some(r.messages)
  {
    RequestField(r, 2);
    MessagesRoundTrip(r.messages);
  }

  // The answer.

  datatype Choice = Choice(index: I32, message: Message, finishReason: string)
  datatype Usage = Usage(promptTokens: I32, totalTokens: I32, completionTokens: I32)

  datatype ChatCompletionResponse = ChatCompletionResponse(
    id: Option<string>,
    objectKind: Option<string>,
    created: Option<I64>,
    model: Option<string>,
    choices: seq<Choice>,
    usage: Option<Usage>)

  function EncodeChoice(c: Choice): Json {
    Obj([("index", EncodeI32(c.index)), ("message", EncodeMessage(c.message)), ("finish_reason", Str(c.finishReason))])
  }

  function EncodeUsage(u: Usage): Json {
    Obj([("prompt_tokens", EncodeI32(u.promptTokens)), ("total_tokens", EncodeI32(u.totalTokens)),
         ("completion_tokens", EncodeI32(u.completionTokens))])
  }

  function EncodeResponse(r: ChatCompletionResponse): Json {
    Obj([
      ("id", EncodeOptional(r.id, EncodeString)),
      ("object", EncodeOptional(r.objectKind, EncodeString)),
      ("created", EncodeOptional(r.created, EncodeI64)),
      ("model", EncodeOptional(r.model, EncodeString)),
      ("choices", Arr(EncodeList(r.choices, EncodeChoice))),
      ("usage", EncodeOptional(r.usage, EncodeUsage))])
  }

  function DecodeChoice(j: Json): Option<Choice> {
    match j
    case Obj(members) =>
      (match (Required(members, "index", AsI32), Required(members, "message", DecodeMessage),
              Required(members, "finish_reason", AsString))
       case (Some(index), Some(message), Some(finishReason)) => Some(Choice(index, message, finishReason))
       case _ => None)
    case _ => None
  }

  function DecodeUsage(j: Json): Option<Usage> {
    match j
    case Obj(members) =>
      (match (Required(members, "prompt_tokens", AsI32), Required(members, "total_tokens", AsI32),
              Required(members, "completion_tokens", AsI32))
       case (Some(p), Some(t), Some(c)) => Some(Usage(p, t, c))
       case _ => None)
    case _ => None
  }

  function DecodeChoices(j: Json): Option<seq<Choice>> {
    if j.Arr? then DecodeList(j.items, DecodeChoice) else None
  }

  function DecodeResponse(j: Json): (r: Option<ChatCompletionResponse>)
    ensures r.Some? ==> j.Obj? && Find(j.members, "choices").Found?
  {
    match j
    case Obj(members) =>
      (match (Optional(members, "id", AsString), Optional(members, "object", AsString),
              Optional(members, "created", AsI64), Optional(members, "model", AsString),
              Required(members, "choices", DecodeChoices), Optional(members, "usage", DecodeUsage))
       case (Some(id), Some(objectKind), Some(created), Some(model), Some(choices), Some(usage)) =>
         Some(ChatCompletionResponse(id, objectKind, created, model, choices, usage))
       case _ => None)
    case _ => None
  }

  lemma ChoiceRoundTrip(c: Choice)
    ensures DecodeChoice(EncodeChoice(c)) == Some(c)
  {
    var members := EncodeChoice(c).members;
    assert Distinct(Keys(members));
    FindDistinct(members, 0);
    FindDistinct(members, 1);
    FindDistinct(members, 2);
    MessageRoundTrip(c.message);
  }

  lemma UsageRoundTrip(u: Usage)
    ensures DecodeUsage(EncodeUsage(u)) == Some(u)
  {
    var members := EncodeUsage(u).members;
    assert Distinct(Keys(members));
    FindDistinct(members, 0);
    FindDistinct(members, 1);
    FindDistinct(members, 2);
  }

  lemma ResponseFields(r: ChatCompletionResponse)
    ensures var members := EncodeResponse(r).members;
      && Find(members, "id") == Found(EncodeOptional(r.id, EncodeString))
      && Find(members, "object") == Found(EncodeOptional(r.objectKind, EncodeString))
      && Find(members, "created") == Found(EncodeOptional(r.created, EncodeI64))
      && Find(members, "model") == Found(EncodeOptional(r.model, EncodeString))
      && Find(members, "choices") == Found(Arr(EncodeList(r.choices, EncodeChoice)))
      && Find(members, "usage") == Found(EncodeOptional(r.usage, EncodeUsage))
  {
    var members := EncodeResponse(r).members;
    assert Distinct(Keys(members));
    FindDistinct(members, 0);
    FindDistinct(members, 1);
    FindDistinct(members, 2);
    FindDistinct(members, 3);
    FindDistinct(members, 4);
    FindDistinct(members, 5);
  }

  lemma ChoicesRoundTrip(choices: seq<Choice>)
    ensures DecodeChoices(Arr(EncodeList(choices, EncodeChoice))) == Some(choices)
  {
    forall i | 0 <= i < |choices| ensures DecodeChoice(EncodeChoice(choices[i])) == Some(choices[i]) {
      ChoiceRoundTrip(choices[i]);
    }
    ListRoundTrip(choices, EncodeChoice, DecodeChoice);
  }

  /** An answer written by serde is read back as itself, each choice's message with its role and content. */
  lemma ResponseRoundTrip(r: ChatCompletionResponse)
    ensures DecodeResponse(EncodeResponse(r)) == Some(r)
  {
    var members := EncodeResponse(r).members;
    ResponseFields(r);
    OptionalRoundTrip(members, "id", r.id, EncodeString, AsString);
    OptionalRoundTrip(members, "object", r.objectKind, EncodeString, AsString);
    OptionalRoundTrip(members, "created", r.created, EncodeI64, AsI64);
    OptionalRoundTrip(members, "model", r.model, EncodeString, AsString);
    if r.usage.Some? {
      UsageRoundTrip(r.usage.value);
    }
    OptionalRoundTrip(members, "usage", r.usage, EncodeUsage, DecodeUsage);
    ChoicesRoundTrip(r.choices);
  }

  // The operation.

  /** The one error of the operation: whatever failed, it is the HTTP layer's error. */
  datatype ChatCompletionError = ReqwestError(failure: TransportFailure)

  /** What one call did: the body it sent, and what it returned. */
  datatype ChatExchange = ChatExchange(body: Json, result: Result<ChatCompletionResponse, ChatCompletionError>)

  /**
    The operation. `server` stands for the HTTP exchange: the parsed body
    of the answer to the request body it is given, or the transport
    failure. The status code is not looked at: any body that reads as an
    answer is one.
   */
  function Complete(request: ChatCompletionRequest, server: Json -> Result<Json, TransportFailure>): (e: ChatExchange)
    ensures e.body == EncodeRequest(request)
    ensures server(e.body).Err? ==> e.result == Err(ReqwestError(server(e.body).error))
    ensures server(e.body).Ok? && DecodeResponse(server(e.body).value).None? ==> e.result == Err(ReqwestError(DecodeFailed))
    ensures e.result.Ok? <==> server(e.body).Ok? && DecodeResponse(server(e.body).value).Some?
    ensures e.result.Ok? ==> DecodeResponse(server(e.body).value) == Some(e.result.value)
  {
    var body := EncodeRequest(request);
    match server(body)
    case Err(failure) => ChatExchange(body, Err(ReqwestError(failure)))
    case Ok(answer) =>
      match DecodeResponse(answer)
      case None => ChatExchange(body, Err(ReqwestError(DecodeFailed)))
      case Some(response) => ChatExchange(body, Ok(response))
  }

  /**
    An error payload of the service, an object without `choices` such as
    `{"detail": ...}`, is not read as such: it becomes the same transport
    error as a body that is not JSON.
   */
  lemma ApiErrorIsTransportError(request: ChatCompletionRequest, server: Json -> Result<Json, TransportFailure>,
                                 members: seq<(string, Json)>)
    requires server(EncodeRequest(request)) == Ok(Obj(members))
    requires Find(members, "choices").Missing?
    ensures Complete(request, server).result == Err(ReqwestError(DecodeFailed))
  {
  }

  /** Echoing a request's messages back as choices gives back the same messages, each with its role. */
  lemma EchoedMessages(request: ChatCompletionRequest, server: Json -> Result<Json, TransportFailure>,
                       answer: ChatCompletionResponse)
    requires server(EncodeRequest(request)) == Ok(EncodeResponse(answer))
    requires |answer.choices| == |request.messages|
    requires forall i :: 0 <= i < |answer.choices| ==> answer.choices[i].message == request.messages[i]
    ensures Complete(request, server).result.Ok?
    ensures var choices := Complete(request, server).result.value.choices;
      |choices| == |request.messages| &&
      forall i :: 0 <= i < |choices| ==> choices[i].message == request.messages[i]
  {
    ResponseRoundTrip(answer);
  }
}

=== FILE: json.dfy ===
/**
  A parsed JSON value and the few serde rules the client relies on when it
  reads or writes one: how a struct finds its fields in an object, what an
  `Option` field does with `null` or a missing key, and which integers fit
  a Rust integer field. Text parsing and printing belong to serde_json and
  are not modelled: a response reaches the model already parsed.
 */
module Json {
  import opened Wrappers

  /** An IEEE-754 binary64 value carried as its bit pattern; the client does no arithmetic on it. */
  datatype F64 = F64(bits: bv64)

  /** Rust's integer types: serde rejects a JSON integer that does not fit the field. */
  newtype U32 = x: int | 0 <= x < 0x1_0000_0000
  newtype U64 = x: int | 0 <= x < 0x1_0000_0000_0000_0000
  newtype I32 = x: int | -0x8000_0000 <= x < 0x8000_0000
  newtype I64 = x: int | -0x8000_0000_0000_0000 <= x < 0x8000_0000_0000_0000

  /** A JSON value. Object members keep their order and may repeat a key. */
  datatype Json =
    | Null
    | Bool(b: bool)
    | Int(i: int)
    | Float(f: F64)
    | Str(s: string)
    | Arr(items: seq<Json>)
    | Obj(members: seq<(string, Json)>)

  /** What a struct field finds under its key: nothing, one value, or the key more than once. */
  datatype Lookup = Missing | Found(value: Json) | Repeated

  /** `key` occurs in `members` at index `i` and nowhere else. */
  ghost predicate OnlyAt(members: seq<(string, Json)>, key: string, i: int) {
    && 0 <= i < |members|
    && members[i].0 == key
    && forall j :: 0 <= j < |members| && j != i ==> members[j].0 != key
  }

  /**
    The value a derived `Deserialize` reads for the field `key`. A key
    that occurs twice is serde's `duplicate_field` error.
   */
  function Find(members: seq<(string, Json)>, key: string): Lookup
    decreases |members|
  {
    if |members| == 0 then Missing
    else
      var rest := Find(members[1..], key);
      if members[0].0 != key then rest
      else if rest.Missing? then Found(members[0].1)
      else Repeated
  }

  /**
    `Find` against the positions of `key`: missing when it occurs nowhere,
    the value when it occurs at exactly one index, repeated otherwise.
   */
  lemma {:induction false} FindSpec(members: seq<(string, Json)>, key: string)
    ensures Find(members, key).Missing? <==> forall i :: 0 <= i < |members| ==> members[i].0 != key
    ensures Find(members, key).Found? <==> exists i :: OnlyAt(members, key, i)
    ensures forall i :: OnlyAt(members, key, i) ==> Find(members, key) == Found(members[i].1)
    decreases |members|
  {
    if |members| > 0 {
      var rest := Find(members[1..], key);
      FindSpec(members[1..], key);
      if members[0].0 != key {
        assert forall i :: 0 < i < |members| ==> (OnlyAt(members, key, i) <==> OnlyAt(members[1..], key, i - 1));
        assert !OnlyAt(members, key, 0);
        assert forall i :: OnlyAt(members[1..], key, i) ==> OnlyAt(members, key, i + 1);
      } else if rest.Missing? {
        assert OnlyAt(members, key, 0);
      } else {
        assert forall i :: 0 <= i < |members| ==> !OnlyAt(members, key, i) by {
          var k :| 0 <= k < |members[1..]| && members[1..][k].0 == key;
          assert members[k + 1].0 == key;
        }
      }
    }
  }

  /** The keys of `members`, in order. */
  function Keys(members: seq<(string, Json)>): (ks: seq<string>)
    ensures |ks| == |members|
    ensures forall i :: 0 <= i < |members| ==> ks[i] == members[i].0
  {
    seq(|members|, i requires 0 <= i < |members| => members[i].0)
  }

  /** A key list with no repetition: every field of an object written by serde from a struct. */
  ghost predicate Distinct(ks: seq<string>) {
    forall i, j :: 0 <= i < j < |ks| ==> ks[i] != ks[j]
  }

  /** In an object whose keys are distinct, every member is found under its key. */
  lemma FindDistinct(members: seq<(string, Json)>, i: int)
    requires Distinct(Keys(members))
    requires 0 <= i < |members|
    ensures Find(members, members[i].0) == Found(members[i].1)
  {
    var ks := Keys(members);
    forall j | 0 <= j < |members| && j != i
      ensures members[j].0 != members[i].0
    {
      if j < i { assert ks[j] != ks[i]; } else { assert ks[i] != ks[j]; }
    }
    assert OnlyAt(members, members[i].0, i);
    FindSpec(members, members[i].0);
  }

  /** In an object whose keys are distinct, a key outside the key list is missing. */
  lemma FindAbsent(members: seq<(string, Json)>, key: string)
    requires key !in Keys(members)
    ensures Find(members, key) == Missing
  {
    var ks := Keys(members);
    forall i | 0 <= i < |members| ensures members[i].0 != key {
      assert ks[i] == members[i].0;
    }
    FindSpec(members, key);
  }

  // Readers for a struct field, as serde's derived `visit_map` treats it.

  /** A required field: missing or repeated is an error. */
  function Required<T>(members: seq<(string, Json)>, key: string, decode: Json -> Option<T>): (r: Option<T>)
    ensures r.Some? ==> Find(members, key).Found? && decode(Find(members, key).value) == r
    ensures Find(members, key).Found? ==> r == decode(Find(members, key).value)
  {
    match Find(members, key)
    case Found(v) => decode(v)
    case _ => None
  }

  /** A field with `#[serde(default = ...)]`: missing gives `default`. */
  function Defaulted<T>(members: seq<(string, Json)>, key: string, decode: Json -> Option<T>, default: T): (r: Option<T>)
    ensures Find(members, key).Missing? ==> r == Some(default)
    ensures Find(members, key).Repeated? ==> r.None?
    ensures Find(members, key).Found? ==> r == decode(Find(members, key).value)
  {
    match Find(members, key)
    case Missing => Some(default)
    case Found(v) => decode(v)
    case Repeated => None
  }

  /** An `Option<T>` field: missing or `null` gives `None`. */
  function Optional<T>(members: seq<(string, Json)>, key: string, decode: Json -> Option<T>): (r: Option<Option<T>>)
    ensures Find(members, key).Missing? || Find(members, key) == Found(Null) ==> r == Some(None)
    ensures Find(members, key).Repeated? ==> r.None?
    ensures Find(members, key).Found? && Find(members, key).value != Null ==>
      (r.Some? <==> decode(Find(members, key).value).Some?)
    ensures Find(members, key).Found? && Find(members, key).value != Null && r.Some? ==>
      r.value == Some(decode(Find(members, key).value).value)
  {
    match Find(members, key)
    case Missing => Some(None)
    case Found(Null) => Some(None)
    case Found(v) =>
      (match decode(v)
       case Some(x) => Some(Some(x))
       case None => None)
    case Repeated => None
  }

  /** How serde writes an `Option<T>` field that has no `skip_serializing_if`: `None` is `null`. */
  function EncodeOptional<T>(o: Option<T>, encode: T -> Json): Json {
    match o
    case None => Null
    case Some(x) => encode(x)
  }

  /** `Optional` reads back what `EncodeOptional` wrote, when the encoding never writes `null` itself. */
  lemma OptionalRoundTrip<T>(members: seq<(string, Json)>, key: string, o: Option<T>,
                             encode: T -> Json, decode: Json -> Option<T>)
    requires Find(members, key) == Found(EncodeOptional(o, encode))
    requires o.Some? ==> encode(o.value) != Null && decode(encode(o.value)) == Some(o.value)
    ensures Optional(members, key, decode) == Some(o)
  {
  }

  // Leaf decoders.

  function AsString(j: Json): (r: Option<string>)
    ensures r.Some? <==> j.Str?
    ensures r.Some? ==> r.value == j.s
  {
    if j.Str? then Some(j.s) else None
  }

  function EncodeString(s: string): Json {
    Str(s)
  }

  function AsI32(j: Json): (r: Option<I32>)
    ensures r.Some? <==> j.Int? && -0x8000_0000 <= j.i < 0x8000_0000
    ensures r.Some? ==> r.value as int == j.i
  {
    if j.Int? && -0x8000_0000 <= j.i < 0x8000_0000 then Some(j.i as I32) else None
  }

  function AsI64(j: Json): (r: Option<I64>)
    ensures r.Some? <==> j.Int? && -0x8000_0000_0000_0000 <= j.i < 0x8000_0000_0000_0000
    ensures r.Some? ==> r.value as int == j.i
  {
    if j.Int? && -0x8000_0000_0000_0000 <= j.i < 0x8000_0000_0000_0000 then Some(j.i as I64) else None
  }

  function EncodeI32(x: I32): Json {
    Int(x as int)
  }

  function EncodeI64(x: I64): Json {
    Int(x as int)
  }

  /** A JSON array read element by element, as serde reads a `Vec<T>`: one bad element fails the whole array. */
  function DecodeList<T>(items: seq<Json>, decode: Json -> Option<T>): (r: Option<seq<T>>)
    ensures r.Some? <==> forall i :: 0 <= i < |items| ==> decode(items[i]).Some?
    ensures r.Some? ==> |r.value| == |items| && forall i :: 0 <= i < |items| ==> decode(items[i]) == Some(r.value[i])
    decreases |items|
  {
    if |items| == 0 then Some([])
    else
      match (decode(items[0]), DecodeList(items[1..], decode))
      case (Some(x), Some(xs)) =>
        assert forall i :: 0 < i < |items| ==> items[i] == items[1..][i - 1];
        Some([x] + xs)
      case _ =>
        assert forall i :: 0 <= i < |items[1..]| ==> items[1..][i] == items[i + 1];
        None
  }

  /** A `Vec<T>` written as a JSON array, element by element. */
  function EncodeList<T>(xs: seq<T>, encode: T -> Json): (r: seq<Json>)
    ensures |r| == |xs|
  {
    seq(|xs|, i requires 0 <= i < |xs| => encode(xs[i]))
  }

  /** Reading back a written list gives the list, when each element reads back. */
  lemma ListRoundTrip<T>(xs: seq<T>, encode: T -> Json, decode: Json -> Option<T>)
    requires forall i :: 0 <= i < |xs| ==> decode(encode(xs[i])) == Some(xs[i])
    ensures DecodeList(EncodeList(xs, encode), decode) == Some(xs)
  {
    var items := EncodeList(xs, encode);
    assert forall i :: 0 <= i < |xs| ==> items[i] == encode(xs[i]);
    var r := DecodeList(items, decode);
    assert r.Some?;
    assert r.value == xs;
  }
}

=== FILE: strings.dfy ===
/**
  Rust's `[String]::join`, which the audio decoder uses twice: to write an
  error location as a dotted path and to put several error entries into
  one message.
 */
module Strings {

  /** `parts` with `sep` between each two neighbours; no parts give the empty string. */
  function Join(parts: seq<string>, sep: string): (r: string)
    ensures |parts| > 0 ==> parts[0] <= r
  {
    if |parts| == 0 then ""
    else if |parts| == 1 then parts[0]
    else parts[0] + sep + Join(parts[1..], sep)
  }

  /** The summed length of `parts`. */
  function TotalLength(parts: seq<string>): nat {
    if |parts| == 0 then 0 else |parts[0]| + TotalLength(parts[1..])
  }

  /** A join holds every part and one separator between each two of them, and nothing else. */
  lemma {:induction false} JoinLength(parts: seq<string>, sep: string)
    requires |parts| > 0
    ensures |Join(parts, sep)| == TotalLength(parts) + (|parts| - 1) * |sep|
    decreases |parts|
  {
    if |parts| > 1 {
      JoinLength(parts[1..], sep);
    }
  }

  /** Adding a part at the end adds one separator and that part at the end. */
  lemma {:induction false} JoinSnoc(parts: seq<string>, x: string, sep: string)
    requires |parts| > 0
    ensures Join(parts + [x], sep) == Join(parts, sep) + sep + x
    decreases |parts|
  {
    if |parts| > 1 {
      assert (parts + [x])[1..] == parts[1..] + [x];
      JoinSnoc(parts[1..], x, sep);
    } else {
      assert (parts + [x])[1..] == [x];
    }
  }

  /** Joining two non-empty runs is joining each and putting one separator between: order is kept. */
  lemma {:induction false} JoinConcat(xs: seq<string>, ys: seq<string>, sep: string)
    requires |xs| > 0 && |ys| > 0
    ensures Join(xs + ys, sep) == Join(xs, sep) + sep + Join(ys, sep)
    decreases |xs|
  {
    if |xs| == 1 {
      assert (xs + ys)[1..] == ys;
    } else {
      assert (xs + ys)[1..] == xs[1..] + ys;
      JoinConcat(xs[1..], ys, sep);
    }
  }

  /**
    The iteration the standard library performs: copy the first part, then
    for each further part append the separator and the part.
   */
  method JoinInOrder(parts: seq<string>, sep: string) returns (r: string)
    ensures r == Join(parts, sep)
  {
    if |parts| == 0 {
      return "";
    }
    r := parts[0];
    var k := 1;
    while k < |parts|
      invariant 1 <= k <= |parts|
      invariant r == Join(parts[..k], sep)
    {
      JoinSnoc(parts[..k], parts[k], sep);
      assert parts[..k + 1] == parts[..k] + [parts[k]];
      r := r + sep + parts[k];
      k := k + 1;
    }
    assert parts[..k] == parts;
  }

  /** `s` cut at every occurrence of `c`; always at least one piece. */
  function Split(s: string, c: char): (r: seq<string>)
    ensures |r| > 0
    decreases |s|
  {
    if |s| == 0 then [""]
    else
      var rest := Split(s[1..], c);
      if s[0] == c then [""] + rest
      else [[s[0]] + rest[0]] + rest[1..]
  }

  /** A piece with no `c` in it is not cut. */
  lemma {:induction false} SplitPlain(p: string, c: char)
    requires c !in p
    ensures Split(p, c) == [p]
    decreases |p|
  {
    if |p| > 0 {
      SplitPlain(p[1..], c);
      assert [p[0]] + p[1..] == p;
    }
  }

  /** A piece with no `c` in it, then `c`, comes off as the first piece. */
  lemma {:induction false} SplitFirst(p: string, c: char, t: string)
    requires c !in p
    ensures Split(p + [c] + t, c) == [p] + Split(t, c)
    decreases |p|
  {
    var s := p + [c] + t;
    if |p| == 0 {
      assert s[1..] == t;
    } else {
      assert s[1..] == p[1..] + [c] + t;
      SplitFirst(p[1..], c, t);
      assert [p[0]] + p[1..] == p;
    }
  }

  /** A one-character join can be undone when no part contains that character. */
  lemma {:induction false} SplitJoin(parts: seq<string>, c: char)
    requires |parts| > 0
    requires forall i :: 0 <= i < |parts| ==> c !in parts[i]
    ensures Split(Join(parts, [c]), c) == parts
    decreases |parts|
  {
    if |parts| == 1 {
      SplitPlain(parts[0], c);
    } else {
      SplitJoin(parts[1..], c);
      SplitFirst(parts[0], c, Join(parts[1..], [c]));
      assert [parts[0]] + parts[1..] == parts;
    }
  }
}

=== FILE: transport.dfy ===
/**
  The failures the HTTP layer (reqwest) reports. Both operations turn
  every one of them into their `ReqwestError` variant; the model only
  needs to tell them apart from the client's own errors.
 */
module Transport {

  datatype TransportFailure =
    /** The request could not be sent, or no response arrived. */
    | SendFailed
    /** The response body could not be read. */
    | BodyUnreadable
    /** The body is not JSON, or not JSON of the expected shape. */
    | DecodeFailed
}

=== FILE: wrappers.dfy ===
/**
  Option and Result, the two failure-carrying shapes the client uses:
  Rust's `Option<T>` for optional request fields and serde's `Option`
  fields, and `Result<T, E>` for the operations' outcomes.
 */
module Wrappers {

  /** Rust's `Option<T>`. */
  datatype Option<+T> = None | Some(value: T) {

    /** The carried value, or `default` when there is none (Rust's `unwrap_or`). */
    function GetOr(default: T): T {
      match this
      case Some(v) => v
      case None => default
    }
  }

  /** Rust's `Result<T, E>`. */
  datatype Result<+T, +E> = Ok(value: T) | Err(error: E)
}
